=== FILE: README.md ===
# serve-grip in Dafny

A model of the core of `serve-grip`. This is the GRIP adapter that sits between an HTTP
framework and a GRIP proxy such as Pushpin or Fastly Fanout. For every request, the
adapter:

- decides from the `Grip-Sig` header and the configured proxies whether the request came
  through a proxy and whether it was signed;
- recognises WebSocket-over-HTTP requests and builds their WebSocket context (the
  connection id, `meta-*` metadata and decoded events);
- hands the handler a response grip whose `startInstruct()` can succeed at most once;
- rewrites the handler's response into the form the proxy expects.

In WebSocket-over-HTTP mode the rewrite turns 200/204 into 200 "OK", merges the context's
headers and appends the encoded outgoing events. In instruction mode it turns 304 into
200 with `Grip-Status: 304`, prefixes the channels and merges the instruction headers.

The adapter comes in several generations, and the model keeps them apart:

- `ServeGripBase`: the current adapter, over a platform contract.
- `NodeServeGrip` and `HonoServeGrip`: its Node and Hono bindings.
- `ResponseRewrite`: the patched `writeHead`/`end`/`removeHeader` of `ServeGrip.ts` and the
  Node binding.
- `ServeGripBinding`: the grip accessors `ServeGrip.ts` installs.
- `ConnectGrip` and `NextGrip`: the two older adapters.

The shared vocabulary is in these modules:

- `Http`: Node header objects, `Object.assign` on headers, `writeHead` arguments.
- `Text`: JavaScript `toLowerCase`, `indexOf`, `split`, `trim`.
- `WsOverHttp`: detection, the meta map, context construction.
- `Classification`: both generations' signature rules.
- `ResponseGripState`: the `startInstruct` state machine.
- `ServeGripConfig`: `applyConfig` and `getPublisher`.
- `GripToolkit`: the `@fanoutio/grip` values the adapter handles.

The parts of `@fanoutio/grip` that the adapter calls but does not define are parameters,
gathered in a `GripToolkit.Toolkit` record of functions:

- signature validation;
- WebSocket event encoding and decoding;
- `toHeaders` of contexts and instructions;
- base64;
- turning a GRIP URL into a client.

Some properties assume the event codec round-trips; these lemmas say so in their
`requires` (`CodecRoundTrips`). The platform contract of the current adapter
(`getRequestGrip`, `setRequestGrip`, `getRequestHeaderValue`, `isRequestWsOverHttp`,
`getRequestWebSocketContext`, `setResponseGrip`, `setResponseStatus`, `endResponse`,
`onAfterSetup`) is the record `ServeGripBase.Platform`. Its Node and Hono bindings are
values of that record.

Mutation is modelled by returning the new state. Each patched response method becomes a
function from the arguments the handler passes to what reaches the client, together with
the instruct as the call leaves it. Exceptions become `Result` values.

## Model

| member | source | states |
|---|---|---|
| `Classification.Classify` | src/ServeGripBase.ts:137-164 | No header, or no clients, gives three false flags. With every client keyed, `needsSigned` holds and proxied = signed = some client's key (with its issuer) validates the header. With a keyless client, the request is proxied, unsigned and not in need of signing. |
| `Classification.SignedImpliesProxied` | src/ServeGripBase.ts:148-162 | Signed implies proxied and needs-signed. `needsSigned` holds exactly when a header is present and every one of at least one client is keyed. |
| `Classification.AnyValidKeySigns` | src/ServeGripBase.ts:152-159 | With every client keyed, one validating key is enough for proxied and signed. |
| `Classification.KeylessClientTrusts` | src/ServeGripBase.ts:160-162 | Adding one keyless client makes any request with a header proxied and unsigned, whatever the other keys say. |
| `Classification.ClassifyByScan` | src/ServeGripBase.ts:147-163 | The `every`/`some` scans over the clients, as loops, compute exactly the classification. |
| `Classification.ClassifyLegacy` | src/ConnectGrip.ts:92-107 | The older rule. Only a present header and a non-empty proxy list classify. All keys truthy: proxied = signed = some key validates (no issuer). Otherwise proxied and unsigned. |
| `Classification.ClientsOf` | src/ConnectGrip.ts:57-69 | The correspondence under which the two rules are compared: one client per older proxy, carrying that proxy's key and no issuer. |
| `Classification.LegacyAgreesWithBase` | src/NextGrip.ts:57-78 | When no key is the empty string, the older rule and the current one agree on proxied and signed for the same proxies. |
| `Classification.EmptyKeyDiffers` | src/ConnectGrip.ts:97 | An empty-string key is where the generations part. The current adapter counts it as a key (`!= null`), so the request needs signing. The older one finds it falsy and trusts the request. |
| `Http.Lookup` | src/node/ServeGrip.ts:78 | A header object read by name yields the last entry under that name, and nothing exactly when no entry has it. |
| `Http.Flatten` | src/ConnectGrip.ts:26-31 | `flattenHeader`: the first element of a list, a single value as it is, absence as absence. An empty list yields absence. |
| `Http.FlattenIdempotent` | src/ConnectGrip.ts:26-31 | Flattening a flattened value again changes nothing. |
| `Http.Assign` | src/ServeGrip.ts:129 | `Object.assign({}, obj, extra)`: the keys of both objects. `extra` wins on shared names, the other names keep their values, and an absent `obj` adds nothing. |
| `Http.AssignTwice` | src/ServeGrip.ts:209 | Merging the same headers twice equals merging them once. |
| `Text.Lower` | src/ServeGrip.ts:92 | `toLowerCase` maps each character to its lower-case form and keeps the length. |
| `Text.LowerIdempotent` | src/ConnectGrip.ts:145 | Lower-casing twice equals lower-casing once. |
| `Text.IndexOf` | src/ConnectGrip.ts:119 | `indexOf`: the first position of the character, or none when it does not occur. |
| `Text.BeforeFirst` | src/ConnectGrip.ts:119-122 | Cutting at the first `;`: a prefix of the input with no `;`, followed in the input by `;` unless it is the whole input. |
| `Text.Split` | src/ConnectGrip.ts:126 | `split(',')`: at least one part, no part holds the separator, and joining the parts with it gives back the input. |
| `Text.SplitJoin` | src/ConnectGrip.ts:126 | Splitting a join of separator-free parts gives back the parts. |
| `Text.Trim` | src/ConnectGrip.ts:127 | `trim()`: a contiguous slice of the input with no whitespace at either end. |
| `Text.TrimOfTrimmed` | src/ConnectGrip.ts:127 | Trimming twice equals trimming once. |
| `WsOverHttp.ContentTypeBase` | src/ConnectGrip.ts:117-123 | Absent stays absent. Otherwise the result is the part before the first `;`, with no `;` in it, and is the whole value when it has none. |
| `WsOverHttp.AcceptTypes` | src/ConnectGrip.ts:125-127 | One entry per comma-separated part of the accept header, each trimmed. |
| `WsOverHttp.OnlyPost` | src/ConnectGrip.ts:131 | Only a POST can be WebSocket-over-HTTP. |
| `WsOverHttp.ContentTypeParametersIgnored` | src/ConnectGrip.ts:117-132 | A POST with content type `application/websocket-events;` plus any parameters is WebSocket-over-HTTP, whatever its accept header. |
| `WsOverHttp.AcceptListed` | src/ConnectGrip.ts:125-134 | A POST whose accept header lists `application/websocket-events` in any position, with any surrounding whitespace, is WebSocket-over-HTTP. |
| `WsOverHttp.CaseSensitive` | src/ConnectGrip.ts:132 | The media-type comparison is exact: `Application/websocket-events` is not recognised. |
| `WsOverHttp.MetaKey` | src/ConnectGrip.ts:145-147 | A header feeds metadata exactly when its lower-cased name starts with `meta-`. The key is the lower-cased name without those five characters. |
| `WsOverHttp.MetaMapDomain` | src/ConnectGrip.ts:142-149 | The meta map has exactly the keys some `meta-*` header contributes. |
| `WsOverHttp.MetaMapValue` | src/ConnectGrip.ts:142-149 | Each meta key maps to the value of the last header that contributes it. |
| `WsOverHttp.BuildWsContext` | src/ConnectGrip.ts:135-172 | A missing `connection-id` fails, and is checked before decoding. A decode failure fails. Otherwise the context holds the id, the meta map, the decoded events, the prefix given and no outgoing events. |
| `ResponseGripState.StartInstruct` | src/ServeGripBase.ts:224-247 | Unavailable: `NotAvailable`, state unchanged. Already started: `AlreadyStarted`, state unchanged. Otherwise a new instruct, which is remembered. |
| `ResponseGripState.AtMostOnce` | src/ServeGripBase.ts:230-238 | On a fresh grip, any run of calls has at most the first succeed, exactly when instructions are available. Every later call fails with `AlreadyStarted`, and every call fails with `NotAvailable` when instructions are unavailable. |
| `ResponseGripState.Saturated` | src/ServeGripBase.ts:231-243 | Once started or when unavailable, every further call fails the same way. |
| `ResponseGripState.StartWithChannels` | src/ServeGripBase.ts:224-247 | A handler's `startInstruct()` followed by `addChannel` calls succeeds exactly when instructions are available and none were started. The grip then holds the very instruct handed out, with no status or hold and the named channels in order. A call that throws leaves the grip as it was, with the same error `startInstruct()` gives. |
| `ResponseGripState.ChannelsInSteps` | src/ServeGripBase.ts:236-238 | The instruct handed out is the one the grip keeps. Channels added in two steps equal one round over the concatenated names. |
| `ResponseGripState.ObtainedReachable` | src/ServeGripBase.ts:229-243 | Through any sequence of such calls, a grip never comes to hold an instruct unless instructions are available on it, and its availability never changes. A grip without availability is left untouched. |
| `GripToolkit.PrefixChannels` | src/ServeGrip.ts:204-206 | Every channel becomes prefix + name with its previous id kept, in the same order. |
| `GripToolkit.PrefixChannelsCompose` | src/node/ServeGrip.ts:217-219 | Prefixing twice equals prefixing once with the two prefixes concatenated. A second `writeHead` on the same instruct therefore prefixes again. |
| `GripToolkit.PrefixChannelsInvertible` | src/ServeGrip.ts:204-206 | Dropping the prefix's length from a prefixed name gives the original name back. |
| `ServeGripConfig.QueryGet` | src/ServeGripBase.ts:57 | `searchParams.get`: the first value for the name, or none exactly when no parameter has it. |
| `ServeGripConfig.MergeVerifyKey` | src/ServeGripBase.ts:54-61 | The URL gains `verify-key` only when it has none. A binary key is written as `base64:` plus its base64. |
| `ServeGripConfig.MergedUrlHasKey` | src/ServeGripBase.ts:56-60 | After merging, the URL's `verify-key` is its old one if it had one, else the configured key. |
| `ServeGripConfig.QueryGetAppended` | src/ServeGripBase.ts:59 | A parameter appended under an absent name is the one read back. |
| `ServeGripConfig.CopyVerifyKey` | src/ServeGripBase.ts:67-73 | Each descriptor keeps its URI and issuer, and keeps its own key or else gets the configured one. |
| `ServeGripConfig.Normalize` | src/ServeGripBase.ts:49-75 | A publisher is kept by reference. A URL keeps its base and its query and gains at most one parameter: its `verify-key` is its own, else the configured key, else absent. A descriptor, alone or in a list, keeps URI and issuer and gets its own key or else the configured one, in the same order. |
| `ServeGripConfig.ApplyConfig` | src/ServeGripBase.ts:41-81 | Refused exactly when a publisher exists. Otherwise the proxy requirement defaults to false and the prefix to the empty string, and the publisher class is copied. There are proxies exactly when `grip` is given, and they are its normalised form with the verify key merged or copied. |
| `ServeGripConfig.NewServeGrip` | src/ServeGripBase.ts:36-39 | A new adapter has no publisher. Its proxies are the normalised `grip` setting, if any, and its prefix, proxy requirement and publisher class are the configured ones with their defaults. |
| `ServeGripConfig.DescriptorClientsKeyed` | src/ServeGripBase.ts:67-73 | With a verify key configured, every client built from descriptors carries a key. |
| `ServeGripConfig.EnsurePublisher` | src/ServeGripBase.ts:83-106 | The memoised publisher is returned unchanged. Otherwise one is built from the proxies' clients and the current prefix, and it is remembered. |
| `ServeGripConfig.GetPublisher` | src/ServeGripBase.ts:83-106 | Fails with no configuration exactly when nothing is built and nothing is configured. Otherwise it returns the memoised publisher, or builds one from the proxies and the current prefix and remembers it. |
| `ServeGripConfig.GetPublisherMemoised` | src/ServeGripBase.ts:85-105 | A second `getPublisher` returns the same publisher and changes nothing. |
| `ServeGripConfig.ReconfigureAfterPublisherFails` | src/ServeGripBase.ts:44-46 | After `getPublisher`, `applyConfig` is refused. |
| `ServeGripConfig.FreshPublisherFollowsConfig` | src/ServeGripBase.ts:41-100 | A new adapter's first publisher is built from the normalised `grip` setting and the configured prefix. |
| `ServeGripBase.AlreadyRan` | src/ServeGripBase.ts:116-121 | With a request grip present, `run` returns true and changes nothing. |
| `ServeGripBase.MissingConfiguration` | src/ServeGripBase.ts:125-130 | Without proxies, `run` answers 500 with the missing-configuration body, returns false and attaches nothing. |
| `ServeGripBase.ClassifyRequest` | src/ServeGripBase.ts:137-164 | No header: three false flags, and the adapter is left as it was. A header: the publisher is built (or reused) as `getPublisher` would, and the flags are the classification of its clients. The settings never change. |
| `ServeGripBase.RunWith` | src/ServeGripBase.ts:111-262 | With a request grip present, it is a no-op returning true. A refusal attaches nothing and answers exactly one of: 500 without configuration, 501 for an unproxied request with a proxy required, or 400 with the body for the context failure. The settings are never changed. On success, over a platform that keeps what it is given: the request grip is attached and holds a context exactly for WebSocket-over-HTTP; the request is proxied unless no proxy is required; and the context carries the prefix handed to the builder. |
| `ServeGripBase.Run` | src/ServeGripBase.ts:188-217 | Corrected `run`: a context attached to a WebSocket-over-HTTP request carries the configured prefix. |
| `ServeGripBase.RunAsWritten` | src/ServeGripBase.ts:188-217 | `run` as written: a context attached to a WebSocket-over-HTTP request carries the empty prefix, whatever is configured. |
| `ServeGripBase.ProxyRequired` | src/ServeGripBase.ts:177-184 | Not proxied while a proxy is required: 501 with `Not Implemented.\n`, false, and no request grip. |
| `ServeGripBase.ContextFailure` | src/ServeGripBase.ts:188-209 | Each context failure answers 400 with its own body, returns false and attaches nothing. |
| `ServeGripBase.Attached` | src/ServeGripBase.ts:186-262 | A successful `run` attaches the flags and the context. Its response grip offers instructions exactly when there is no context and the request is proxied. It installs the WebSocket rewrite when there is a context and the instruct rewrite otherwise. |
| `ServeGripBase.RunKeepsPrefix` | src/ConnectGrip.ts:172 | The corrected `run` gives the context the configured prefix, as the older adapters do. |
| `ServeGripBase.AsWrittenDropsPrefix` | src/ServeGripBase.ts:190 | `run` as written gives a WebSocket-over-HTTP request a context without the configured prefix. |
| `ServeGripBase.RunTwice` | src/ServeGripBase.ts:116-121 | After a successful `run`, a second `run` on the same request returns true and changes nothing. |
| `ServeGripBase.Exec` | src/ServeGrip.ts:34-48 | `exec`: `fn(err)` when `run` threw, `fn()` exactly when it returned true, nothing when it returned false. |
| `ServeGripBase.AwaitThenNext` | src/ServeGrip.ts:28-31 | Koa and the Next.js `exec`: the continuation follows any returned result and is skipped when the awaited call throws. |
| `ResponseRewrite.WsRemoveHeaderDelegates` | src/ServeGrip.ts:86-108 | `removeHeader` is a no-op exactly for `content-type`, `content-length` and `transfer-encoding` in any case. Every other name, and an absent one, is delegated. |
| `ResponseRewrite.ProtectedHeadersSurvive` | src/node/ServeGrip.ts:101-123 | After any sequence of removals, the three protocol headers keep their values, every other name removed is gone, and nothing is added or changed. |
| `ResponseRewrite.WsWriteHead` | src/ServeGrip.ts:126-145 | 200 or 204 becomes 200 "OK" with the context's headers over the caller's. Any other status passes through unchanged. |
| `ResponseRewrite.WsWriteHeadStable` | src/node/ServeGrip.ts:141-152 | Rewriting twice equals rewriting once, success stays success, and 204 never reaches the client. |
| `ResponseRewrite.WsEnd` | src/ServeGrip.ts:154-163 | For 200/204, exactly the encoded outgoing events followed by the handler's chunk, if any. Otherwise only the chunk. |
| `ResponseRewrite.WsBodyDecodes` | src/node/ServeGrip.ts:166-179 | A 200/204 response ended without a chunk has a body that decodes to exactly the outgoing events. |
| `ResponseRewrite.InstructWriteHead` | src/ServeGrip.ts:188-220 | Without an instruct the head passes through. With one, 304 becomes 200 "OK" with instruct status 304, and other statuses keep status and reason. Every channel gets the prefix with its previous id kept, in order, and hold is unchanged. The head carries the caller's headers with the headers of the instruct so updated merged over them. |
| `ResponseRewrite.InstructHeadersOverride` | src/node/ServeGrip.ts:220-222 | Instruct headers override same-named caller headers, and the caller's other headers survive. |
| `NodeServeGrip.GetRequestHeaderValue` | src/node/ServeGrip.ts:77-83 | A single value as it is, the first element of a list (absence for an empty one), and absence as absence. |
| `NodeServeGrip.HeaderValueReadBack` | src/node/ServeGrip.ts:77-83 | A header set on the request is what is read back for its name, whatever came before it: a single value as it is, a list by its first element. |
| `NodeServeGrip.GetRequestWebSocketContext` | src/node/ServeGrip.ts:73-75 | The builder as written is called without a prefix, so a context it builds carries the empty prefix. It fails with the missing-id error exactly when `connection-id` is absent, and it never fails with the third, unspecific error. |
| `NodeServeGrip.NodePlatform` | src/node/ServeGrip.ts:61-95 | A request grip set is the one read back. `setResponseStatus` then `endResponse` sets the status and the ended chunk and nothing else. The builder at the empty prefix is `getRequestWebSocketContext` as written. |
| `NodeServeGrip.NodeContextCarriesPrefix` | src/ConnectGrip.ts:172 | The corrected binding: handed the configured prefix, as the Connect generation passes it here, the Node context builder gives the context that prefix. |
| `NodeServeGrip.Finish` | src/node/ServeGrip.ts:128-234 | What reaches the client. Without a patch, the handler's head and chunk. In WebSocket mode, the context as the handler left it (its queued events appended): 200/204 becomes 200 "OK" with that context's headers merged, and its encoded events come before the chunk, while other statuses pass through. In instruction mode with an instruct, 304 becomes 200 "OK", and the headers of the instruct (carrying status 304 and the prefixed channels) are merged. Without an instruct the head passes through. |
| `NodeServeGrip.WsResponseEndToEnd` | src/node/ServeGrip.ts:141-179 | A WebSocket-mode response ended with 200/204 and no chunk reaches the client as 200 "OK" with the live context's headers merged, and its body decodes to the events queued before and by the handler. |
| `NodeServeGrip.WsOtherStatusUntouched` | src/node/ServeGrip.ts:141-174 | In WebSocket mode any other status reaches the client unchanged, with the handler's chunk only. |
| `NodeServeGrip.NotModifiedEndToEnd` | src/node/ServeGrip.ts:201-222 | After `run`, a plain request gets instruction mode, and the handler's `startInstruct()` succeeds exactly when the request is proxied. Answered 304 with channels added, a proxied request reaches the client as 200 "OK" with the headers of an instruct holding status 304 and the prefixed channels. An unproxied one gets its 304 unchanged. |
| `HonoServeGrip.MatchingValues` | src/hono/ServeGrip.ts:69 | Some value matches exactly when some header name equals the key ignoring case. |
| `HonoServeGrip.HeadersGet` | src/hono/ServeGrip.ts:68-70 | `headers.get(key) ?? undefined` is absent exactly when no header name equals the key ignoring case. Otherwise it is the matching values joined by `", "`. |
| `HonoServeGrip.MatchingValuesAppend` | src/hono/ServeGrip.ts:69 | A header arriving after the others adds its value at the end of the matching values exactly when its name matches ignoring case. |
| `HonoServeGrip.JoinValuesAppend` | src/hono/ServeGrip.ts:69 | Joining one more value appends `", "` and the value. |
| `HonoServeGrip.HeadersGetAppend` | src/hono/ServeGrip.ts:68-70 | Reading after one more header arrives: a matching name starts the value or adds `", "` and its value, and any other name leaves the answer unchanged. With the empty case, this determines `HeadersGet` on every header list. |
| `HonoServeGrip.MatchingValuesCaseInsensitive` | src/hono/ServeGrip.ts:69 | The values found do not depend on the case of the name asked for. |
| `HonoServeGrip.HeadersGetCaseInsensitive` | src/hono/ServeGrip.ts:68-70 | `Grip-Sig` and `grip-sig` read the same value. |
| `HonoServeGrip.HeadersGetSingle` | src/hono/ServeGrip.ts:68-70 | A header that arrives once is read back as it arrived. |
| `HonoServeGrip.MatchingValuesSingle` | src/hono/ServeGrip.ts:69 | A header that arrives once is the only value found. |
| `HonoServeGrip.AsIncoming` | src/hono/ServeGrip.ts:64-66 | The context builder sees each raw header once, with a lower-case name and a single value. |
| `HonoServeGrip.HonoPlatform` | src/hono/ServeGrip.ts:52-87 | A request grip set is the one read back. `setResponseStatus` and `endResponse` only record status and chunk, and `onAfterSetup` only installs the getter. The builder at the empty prefix is `getRequestWebSocketContext` as written. |
| `HonoServeGrip.GetRequestWebSocketContext` | src/hono/ServeGrip.ts:64-66 | The builder as written is called without a prefix, so a context it builds carries the empty prefix. It never fails with the third, unspecific error. |
| `HonoServeGrip.HonoContextCarriesPrefix` | src/ConnectGrip.ts:172 | The corrected binding: handed the configured prefix, as the Connect generation passes it here, the Hono context builder gives the context that prefix. |
| `HonoServeGrip.MergeGrip` | src/hono/ServeGrip.ts:128-136 | The grip context holds the request grip's fields, the response grip and the adapter behind `getPublisher`, unchanged. |
| `HonoServeGrip.ErrorResponse` | src/hono/ServeGrip.ts:119-124 | Status `status ?? 500` and body `endChunk ?? 'Error in serveGrip middleware.'`, with the `text/plain;charset=UTF-8` content type the Fetch `Response` constructor gives a string body. |
| `HonoServeGrip.AfterNext` | src/hono/ServeGrip.ts:140-178 | WebSocket mode: 200/204 is replaced by 200 with the context's headers and the encoded events, and other statuses are untouched. Instruct mode, when the handler's `startInstruct()` rounds left an instruct on the grip: 304 becomes 200 with instruct status 304, channels are prefixed, instruct headers override, and the body is kept. Without an instruct the response is untouched. |
| `HonoServeGrip.Middleware` | src/hono/ServeGrip.ts:99-181 | The error response is sent, and the handler is not called, exactly when `run` failed or left a grip unset. Otherwise the handler gets the merged grip context: it has a WebSocket context exactly for WebSocket-over-HTTP, it is proxied unless no proxy is required, and its response grip has nothing started, with instructions available exactly when there is no context and the request is proxied. The response is then the rewrite of what the handler produced. |
| `HonoServeGrip.MiddlewareWithoutConfiguration` | src/hono/ServeGrip.ts:116-125 | Without a GRIP setting the middleware answers 500 with the missing-configuration body as text. |
| `HonoServeGrip.MiddlewareProxyRequired` | src/hono/ServeGrip.ts:116-125 | With a proxy required and an unproxied request, the middleware answers 501 `Not Implemented.\n` as text and never calls the handler. |
| `HonoServeGrip.NoInstructUnlessProxied` | src/hono/ServeGrip.ts:154-178 | A plain request that is not proxied reaches the client with the handler's response unchanged, whatever `startInstruct()` calls the handler makes. |
| `HonoServeGrip.ProxiedNotModified` | src/hono/ServeGrip.ts:154-178 | A proxied plain request whose handler starts one instruct, adds channels and answers 304 reaches the client as 200. It gets the handler's body and the headers of an instruct holding status 304 and the prefixed channels. |
| `HonoServeGrip.WsExchangeDecodes` | src/hono/ServeGrip.ts:142-152 | A 200/204 WebSocket exchange reaches the client as 200, with a body that decodes to every event queued on the context. |
| `ServeGripBinding.Install` | src/ServeGrip.ts:50-78 | Missing accessors get the default, and accessors already present are kept. |
| `ServeGripBinding.InstallIdempotent` | src/ServeGrip.ts:52-61 | Wrapping twice installs nothing more. |
| `ServeGripBinding.RequestAccessorsRoundTrip` | src/ServeGrip.ts:52-61 | On a bare request wrapper, the installed `setGrip` then `getGrip` returns the grip set. |
| `ServeGripBinding.ResponseAccessorsRoundTrip` | src/ServeGrip.ts:67-76 | On a bare response wrapper, the installed `setGrip` then `getGrip` returns the grip set. |
| `ConnectGrip.ApplyConnectConfig` | src/ConnectGrip.ts:46-55 | Every setting is replaced, with defaults false and the empty string. A publisher already built is kept, since there is no guard. |
| `ConnectGrip.ConnectGetPublisher` | src/ConnectGrip.ts:57-69 | Builds once, from the proxies followed by the publishing servers and the current prefix, then returns the memoised publisher. |
| `ConnectGrip.StalePublisherAfterReconfigure` | src/ConnectGrip.ts:46-69 | Reconfiguring after `getPublisher` leaves the old publisher, with its old prefix and clients, in use. |
| `ConnectGrip.ConnectRun` | src/ConnectGrip.ts:86-200 | Unproxied with a proxy required: 501 and nothing attached. Otherwise either a WebSocket-over-HTTP request is answered 400 with one of the two context bodies and nothing attached, or the flags are attached. In that case there is a context exactly for WebSocket-over-HTTP, carrying the configured prefix; instructions are available and the patch installed exactly when the request is proxied; and status and body are untouched. |
| `ConnectGrip.ConnectProxyRequired` | src/ConnectGrip.ts:109-115 | Not proxied while a proxy is required: 501 with its body, and nothing attached. |
| `ConnectGrip.ConnectMissingConnectionId` | src/ConnectGrip.ts:135-140 | A WebSocket-over-HTTP request without `connection-id` gets 400 with its body, and nothing attached. |
| `ConnectGrip.ConnectDecodeFailure` | src/ConnectGrip.ts:164-171 | Undecodable events get 400 `Error parsing WebSocket events.\n`, and nothing attached. |
| `ConnectGrip.ConnectAttached` | src/ConnectGrip.ts:172-204 | On success: the flags; a context exactly for WebSocket-over-HTTP, with id, meta, decoded events and the configured prefix; instructions available exactly when proxied; the patch installed exactly when proxied; status and body untouched. |
| `ConnectGrip.InstructAvailableOverWebSocket` | src/ConnectGrip.ts:188-198 | On a proxied WebSocket-over-HTTP request the first `startInstruct` succeeds, since this generation ignores the context. |
| `ConnectGrip.ConnectWriteHead` | src/ConnectGrip.ts:207-242 | 200 with a context merges the context's headers. Otherwise a started instruct turns 304 into 200 "OK" with instruct status 304 and has its headers merged, with channels unprefixed. Without an instruct the head passes through. |
| `ConnectGrip.NoContentNotRewritten` | src/ConnectGrip.ts:218 | A 204 WebSocket-over-HTTP head with no instruct passes through unchanged. |
| `ConnectGrip.ConnectEnd` | src/ConnectGrip.ts:246-256 | For 200 with a context, exactly the encoded events followed by the handler's chunk, if any. Otherwise only the chunk. |
| `ConnectGrip.ConnectWsBodyDecodes` | src/ConnectGrip.ts:248-255 | A 200 response with a context, ended without a chunk, has a body that decodes to exactly the outgoing events. |
| `ConnectGrip.ConnectExec` | src/ConnectGrip.ts:71-84 | `fn` is always called, with the error when `run` threw. |
| `ConnectGrip.ExecGenerationsDiffer` | src/ConnectGrip.ts:76-82 | The two `exec` rules differ on exactly one outcome: a `run` that returned false. |
| `NextGrip.CheckGripStatus` | src/NextGrip.ts:57-78 | The older keyed/keyless rule, giving only proxied and signed. |
| `NextGrip.Handle` | src/NextGrip.ts:101-236 | Whatever happens, a request grip with the flags and a response grip are attached, with nothing started. On a response not yet ended, instructions are available exactly when the request is proxied and `handle` did not answer. The request grip holds the context exactly when one was built. The `writeHead`/`end` patch, capturing that same context, is installed exactly for a proxied request whose context did not fail. |
| `NextGrip.NextAttached` | src/NextGrip.ts:139-235 | When any WebSocket context is built, on a fresh response, the request grip carries the flags and that context. A proxied request gets available instructions and the patch with the context. An unproxied one gets 501 when a proxy is required, and otherwise only the unavailable default grip. |
| `NextGrip.MissingConnectionIdBeforeProxyCheck` | src/NextGrip.ts:139-148 | A WebSocket-over-HTTP request without `connection-id` gets 400, even where a 501 would be due. The request grip carries no context, and the response grip is the default one, with instructions unavailable. |
| `NextGrip.DecodeFailureBeforeProxyCheck` | src/NextGrip.ts:159-166 | Undecodable events get 400 with the decode body, whatever the proxy requirement. |
| `NextGrip.NextProxyRequired` | src/NextGrip.ts:226-233 | The 501 answer comes exactly for an unproxied request with a proxy required, once any context was built. |
| `NextGrip.NextWriteHead` | src/NextGrip.ts:186-210 | Status and reason are never changed. On 200 with a context the context's headers are merged. A started instruct's headers are merged on top at any status. |
| `NextGrip.BothHeaderSetsMerged` | src/NextGrip.ts:197-203 | On 200 with a context and an instruct, every instruct header and every context header the instruct does not name reaches the client. |
| `NextGrip.NotModifiedPassesThrough` | src/NextGrip.ts:197-203 | 304 stays 304, since this generation has no rewrite for it. |
| `NextGrip.NextEndSkipsNoContent` | src/NextGrip.ts:214-224 | On 204 no events are written, only the handler's chunk. |
| `NextGrip.CreateGripHandler` | src/NextGrip.ts:239-245 | `createGripHandler` runs `handle` and then `fn` unconditionally, and `fn` always sees both grips. |

## Findings

| source | as written | input that shows it | evidently intended | confidence | as-written member | corrected member |
|---|---|---|---|---|---|---|
| src/ServeGripBase.ts:190 | `run` builds the WebSocket context with `getWebSocketContextFromApiRequest(req)`, which passes no channel prefix. The bindings' `getRequestWebSocketContext(req)` (src/node/ServeGrip.ts:73-75, src/hono/ServeGrip.ts:64-66) take none either. | An adapter configured with prefix `p-` and a keyless proxy. A POST with `grip-sig`, `content-type: application/websocket-events` and `connection-id`, and a body that decodes. | The context carries the configured prefix, as in src/ConnectGrip.ts:172 and src/NextGrip.ts:167. Instruction mode applies the prefix to every channel (src/ServeGrip.ts:204-206), so channels subscribed from a WebSocket context would otherwise miss it. | medium; not executed | `ServeGripBase.AsWrittenDropsPrefix` | `ServeGripBase.RunKeepsPrefix` |

In the model, `ServeGripBase.RunAsWritten` is the code as written and `ServeGripBase.Run`
the corrected `run`. The Node and Hono platforms carry the toolkit's context builder, which
takes a prefix. Called without one it is their `getRequestWebSocketContext` as written
(`NodeServeGrip.GetRequestWebSocketContext`, `HonoServeGrip.GetRequestWebSocketContext`).
The Hono middleware uses the corrected `Run`.

## Left out

- Signature validation (JWT), WebSocket event encoding and decoding, `toHeaders` of contexts
  and instructions, base64 and URL parsing belong to `@fanoutio/grip` and Node. They are
  function parameters in `GripToolkit.Toolkit`. Only the codec round trip is assumed, and
  only where a lemma says so.
- Publishing itself (`PrefixedPublisher.ts` and the publisher's network calls) is left
  out. A publisher is represented by its clients and prefix.
- Promises and `await`, `CallableInstance` dispatch, and `debug` logging are left out. So
  is reading the request body as a stream in `ConnectGrip.ts:151-162`: the body is given
  as bytes.
- `hono/fastly/util.ts` (a Fastly platform call) and the `examples/` servers are not part
  of this model.
- The type-only files (`IRequestGrip.ts`, the `I*Config.ts` files, the `*Api*` files,
  `types.ts`, `index.ts`, `main.ts`) appear only as datatypes.
- `IConnectGripConfig.ts` declares `grip` and `prefix`, but `ConnectGrip.applyConfig` and
  `NextGrip.applyConfig` read `gripProxies`, `gripPubServers`, `gripProxyRequired` and
  `gripPrefix`. The model follows the code.
- The platform-neutral base class that the Node and Hono bindings extend (`getRequestGrip`,
  `onAfterSetup`, …) is not part of this model. Its `run` is taken to be
  `ServeGripBase.ts:111-262` over that contract, with `onAfterSetup` receiving the mode the
  patch would have installed.
- `Text.Lower`: it lower-cases ASCII letters only. JavaScript `toLowerCase` also folds
  non-ASCII letters, and the header names compared here are ASCII.
- `HonoServeGrip.AfterNext`: it treats `c.status(200)` after `next()` as changing the
  status of the response already produced. Whether Hono applies it to `c.res` is framework
  behaviour outside the model.
- `HonoServeGrip.AsIncoming`: the toolkit reads Fetch headers with lower-case names and
  repeated headers combined. The model hands the context builder one entry per raw header
  instead, so a repeated `meta-*` header keeps its last value rather than the combined one.
- Setting Fetch response headers lower-cases their names. The Hono header merge is
  modelled as a map update on the names as the instruct gives them.
- `NodeServeGrip.GetRequestHeaderValue` and the other Node header lookups match names
  exactly, as JavaScript property access does. Node stores incoming header names in lower
  case, and the adapter asks with lower-case names.
- `NodeServeGrip.NodePlatform`: the binding's context builder takes the prefix the context
  is to carry. The binding as written takes none (src/node/ServeGrip.ts:73-75), which is
  this builder at the empty prefix. The prefix parameter is the correction the Findings
  table describes.
- `HonoServeGrip.HonoPlatform`: the same, for src/hono/ServeGrip.ts:64-66.
- `HonoServeGrip.Middleware`: it runs the corrected `run`. With the `run` as written, a
  WebSocket context reaches the handler with the empty prefix instead of the configured one.
- `NodeServeGrip.IsRequestWsOverHttp`, `HonoServeGrip.IsRequestWsOverHttp` and both
  bindings' context builders stand for the toolkit's `isNodeReqWsOverHttp`,
  `getWebSocketContextFromNodeReq`, `isWsOverHttp` and `getWebSocketContextFromReq`. These
  are not part of this model. They are taken to follow the inline rule of
  `ConnectGrip.ts:117-172`. So through these bindings the third 400 body, for an unspecific
  context failure (`ServeGripBase.ts:204-207`), cannot occur. `ServeGripBase.RunWith`
  still handles it for any platform.
- `NodeServeGrip.Finish`: the handler's effect on the WebSocket context is modelled as the
  events it queues. Changes it makes to the context's metadata, which alter the context's
  headers, are not tracked separately. The same holds for `HonoServeGrip.AfterNext`
  (`HandlerOutcome.sent`).
- `HonoServeGrip.AfterNext`: the handler's use of the response grip is modelled as rounds of
  `startInstruct()` followed by `addChannel` (`ResponseGripState.StartWithChannels`). A
  round whose `startInstruct()` throws is taken as caught by the handler. An uncaught
  exception is left to the framework and is not part of this model. Other changes a
  handler makes to the instruct (its status, hold or headers) are not tracked. The same
  holds for `NodeServeGrip.NotModifiedEndToEnd`, and `GripToolkit.AddChannels` stands for
  the toolkit's `addChannel`.
- `Classification.ClientsOf`: how the toolkit's publisher turns an older proxy entry into
  a client is `@fanoutio/grip` behaviour. It is not part of this model, and
  `ConnectGrip.ConnectGetPublisher` does not depend on it. It serves only to compare the two
  signature rules.

=== FILE: classification.dfy ===
/**
 * Request classification from the `Grip-Sig` header: is the request coming through a
 * GRIP proxy, was it signed, and must it be signed. Two generations of the rule exist:
 * the one of `ServeGripBase` (publisher clients, key presence decided by `!= null`,
 * three flags) and the older one shared by `ConnectGrip` and `NextGrip` (configured
 * proxies, key decided by truthiness, two flags).
 */
module Classification {
  import opened Wrappers
  import opened GripToolkit

  datatype Flags = Flags(isProxied: bool, isSigned: bool, needsSigned: bool)

  /** `clients.every((client) => client.getVerifyKey() != null)`. */
  predicate AllKeyed(clients: seq<Client>) {
    forall i :: 0 <= i < |clients| ==> clients[i].verifyKey.Some?
  }

  /** Some client's key validates the signature header (with that client's issuer). */
  predicate SomeValidates(sig: string, clients: seq<Client>, validSig: (string, Key, Option<string>) -> bool) {
    exists i :: 0 <= i < |clients| && clients[i].verifyKey.Some?
                && validSig(sig, clients[i].verifyKey.value, clients[i].verifyIss)
  }

  /**
   * The classification of `ServeGripBase.run`. A keyless client means the operator
   * accepts unverified requests: the request then counts as proxied without any check.
   */
  function Classify(sig: Option<string>, clients: seq<Client>, validSig: (string, Key, Option<string>) -> bool): (f: Flags)
    ensures sig.None? ==> f == Flags(false, false, false)
    ensures |clients| == 0 ==> f == Flags(false, false, false)
    ensures sig.Some? && |clients| > 0 && AllKeyed(clients) ==>
              f.needsSigned && f.isProxied == f.isSigned == SomeValidates(sig.value, clients, validSig)
    ensures sig.Some? && |clients| > 0 && !AllKeyed(clients) ==> f == Flags(true, false, false)
  {
    if sig.None? || |clients| == 0 then Flags(false, false, false)
    else if AllKeyed(clients) then
      var ok := SomeValidates(sig.value, clients, validSig);
      Flags(ok, ok, true)
    else Flags(true, false, false)
  }

  /** A signed request is always a proxied one, and a signed one always needed signing. */
  lemma SignedImpliesProxied(sig: Option<string>, clients: seq<Client>, validSig: (string, Key, Option<string>) -> bool)
    ensures Classify(sig, clients, validSig).isSigned ==> Classify(sig, clients, validSig).isProxied
    ensures Classify(sig, clients, validSig).isSigned ==> Classify(sig, clients, validSig).needsSigned
    ensures Classify(sig, clients, validSig).needsSigned <==> sig.Some? && |clients| > 0 && AllKeyed(clients)
  {
  }

  /** Key rotation: with every client keyed, one client's key validating suffices. */
  lemma AnyValidKeySigns(sig: string, clients: seq<Client>, validSig: (string, Key, Option<string>) -> bool, k: nat)
    requires AllKeyed(clients)
    requires k < |clients| && validSig(sig, clients[k].verifyKey.value, clients[k].verifyIss)
    ensures Classify(Some(sig), clients, validSig) == Flags(true, true, true)
  {
    assert SomeValidates(sig, clients, validSig);
  }

  /** Adding a keyless client to a non-empty registry turns any signed header into a trusted one. */
  lemma KeylessClientTrusts(sig: string, clients: seq<Client>, iss: Option<string>,
                            validSig: (string, Key, Option<string>) -> bool)
    ensures Classify(Some(sig), clients + [Client(None, iss)], validSig) == Flags(true, false, false)
  {
    var cs := clients + [Client(None, iss)];
    assert !cs[|cs| - 1].verifyKey.Some?;
  }

  /**
   * The classification as the source evaluates it: `every` stops at the first keyless
   * client, `some` at the first validating key.
   */
  method ClassifyByScan(sig: Option<string>, clients: seq<Client>, validSig: (string, Key, Option<string>) -> bool)
    returns (f: Flags)
    ensures f == Classify(sig, clients, validSig)
  {
    f := Flags(false, false, false);
    if sig.None? || |clients| == 0 {
      return;
    }
    var every := true;
    var i := 0;
    while i < |clients| && every
      invariant 0 <= i <= |clients|
      invariant every <==> forall j :: 0 <= j < i ==> clients[j].verifyKey.Some?
    {
      every := clients[i].verifyKey.Some?;
      i := i + 1;
    }
    if !every {
      f := Flags(true, false, false);
      return;
    }
    var some := false;
    i := 0;
    while i < |clients| && !some
      invariant 0 <= i <= |clients|
      invariant some <==> exists j :: 0 <= j < i && clients[j].verifyKey.Some?
                                    && validSig(sig.value, clients[j].verifyKey.value, clients[j].verifyIss)
    {
      some := validSig(sig.value, clients[i].verifyKey.value, clients[i].verifyIss);
      i := i + 1;
    }
    f := Flags(some, some, true);
  }

  /** An older-generation proxy configuration (`IGripConfig` with `key`). */
  datatype LegacyProxy = LegacyProxy(controlUri: string, key: Option<Key>)

  /** The flags of the older adapters, which have no `needsSigned`. */
  datatype LegacyFlags = LegacyFlags(isProxied: bool, isSigned: bool)

  /** JavaScript truthiness of `proxy.key`: an empty string is falsy, a `Buffer` always truthy. */
  predicate Truthy(k: Option<Key>) {
    k.Some? && (k.value.BinaryKey? || k.value.text != "")
  }

  predicate AllTruthy(ps: seq<LegacyProxy>) {
    forall i :: 0 <= i < |ps| ==> Truthy(ps[i].key)
  }

  predicate SomeProxyValidates(sig: string, ps: seq<LegacyProxy>, validSig: (string, Key, Option<string>) -> bool) {
    exists i :: 0 <= i < |ps| && ps[i].key.Some? && validSig(sig, ps[i].key.value, None)
  }

  /**
   * The classification of `ConnectGrip.run` and `NextGrip.checkGripStatus`: only when the
   * header is present and the proxies are a non-empty list; no issuer is passed.
   */
  function ClassifyLegacy(sig: Option<string>, proxies: Option<seq<LegacyProxy>>,
                          validSig: (string, Key, Option<string>) -> bool): (f: LegacyFlags)
    ensures sig.None? || proxies.None? || |proxies.value| == 0 ==> f == LegacyFlags(false, false)
    ensures sig.Some? && proxies.Some? && |proxies.value| > 0 && AllTruthy(proxies.value) ==>
              f.isProxied == f.isSigned == SomeProxyValidates(sig.value, proxies.value, validSig)
    ensures sig.Some? && proxies.Some? && |proxies.value| > 0 && !AllTruthy(proxies.value) ==>
              f == LegacyFlags(true, false)
  {
    if sig.None? || proxies.None? || |proxies.value| == 0 then LegacyFlags(false, false)
    else if AllTruthy(proxies.value) then
      var ok := SomeProxyValidates(sig.value, proxies.value, validSig);
      LegacyFlags(ok, ok)
    else LegacyFlags(true, false)
  }

  /** The clients a publisher builds from older-generation proxies (no issuer). */
  function ClientsOf(ps: seq<LegacyProxy>): (cs: seq<Client>)
    ensures |cs| == |ps|
    ensures forall i :: 0 <= i < |ps| ==> cs[i] == Client(ps[i].key, None)
  {
    seq(|ps|, i requires 0 <= i < |ps| => Client(ps[i].key, None))
  }

  /**
   * Where no key is the empty string, both generations agree on `isProxied` and
   * `isSigned`; an empty-string key is the one place they part (see the next lemma).
   */
  lemma {:induction false} LegacyAgreesWithBase(sig: Option<string>, ps: seq<LegacyProxy>,
                                                validSig: (string, Key, Option<string>) -> bool)
    requires forall i :: 0 <= i < |ps| ==> ps[i].key != Some(TextKey(""))
    ensures ClassifyLegacy(sig, Some(ps), validSig).isProxied == Classify(sig, ClientsOf(ps), validSig).isProxied
    ensures ClassifyLegacy(sig, Some(ps), validSig).isSigned == Classify(sig, ClientsOf(ps), validSig).isSigned
  {
    var cs := ClientsOf(ps);
    if sig.Some? && |ps| > 0 {
      assert AllTruthy(ps) <==> AllKeyed(cs) by {
        if AllTruthy(ps) {
          forall i | 0 <= i < |cs| ensures cs[i].verifyKey.Some? {
            assert Truthy(ps[i].key);
          }
        }
        if AllKeyed(cs) {
          forall i | 0 <= i < |ps| ensures Truthy(ps[i].key) {
            assert cs[i].verifyKey.Some?;
          }
        }
      }
      if AllTruthy(ps) {
        assert SomeProxyValidates(sig.value, ps, validSig) <==> SomeValidates(sig.value, cs, validSig) by {
          if SomeProxyValidates(sig.value, ps, validSig) {
            var i :| 0 <= i < |ps| && ps[i].key.Some? && validSig(sig.value, ps[i].key.value, None);
            assert cs[i].verifyKey.Some? && validSig(sig.value, cs[i].verifyKey.value, cs[i].verifyIss);
          }
          if SomeValidates(sig.value, cs, validSig) {
            var i :| 0 <= i < |cs| && cs[i].verifyKey.Some?
                     && validSig(sig.value, cs[i].verifyKey.value, cs[i].verifyIss);
            assert ps[i].key.Some? && validSig(sig.value, ps[i].key.value, None);
          }
        }
      }
    }
  }

  /**
   * An empty-string key: the base rule sees a keyed client and demands a valid signature,
   * the older rule sees a keyless proxy and trusts the request.
   */
  lemma EmptyKeyDiffers(sig: string)
    ensures var never := (s: string, k: Key, iss: Option<string>) => false;
            && Classify(Some(sig), [Client(Some(TextKey("")), None)], never) == Flags(false, false, true)
            && ClassifyLegacy(Some(sig), Some([LegacyProxy("", Some(TextKey("")))]), never) == LegacyFlags(true, false)
  {
    var never := (s: string, k: Key, iss: Option<string>) => false;
    var ps := [LegacyProxy("", Some(TextKey("")))];
    assert !Truthy(ps[0].key);
    assert !AllTruthy(ps);
    assert !SomeValidates(sig, [Client(Some(TextKey("")), None)], never);
  }
}

=== FILE: config.dfy ===
/**
 * Configuration of a `ServeGripBase` adapter: normalising the `grip` setting together
 * with `gripVerifyKey`, the defaults of the other settings, and the publisher that is
 * built from the normalised setting at most once.
 */
module ServeGripConfig {
  import opened Wrappers
  import opened Http
  import opened GripToolkit

  /** One endpoint descriptor (`IGripConfig`): control URI, verify key and issuer. */
  datatype GripConfig = GripConfig(controlUri: string, verifyKey: Option<Key>, verifyIss: Option<string>)

  /** An already-built publisher handed over by reference, seen through its clients. */
  datatype Publisher = Publisher(clients: seq<Client>)

  /** The `publisherClass` setting: the toolkit's `Publisher` or a user-supplied subclass. */
  datatype PublisherClass = PublisherClass(name: string)

  /** The forms the `grip` setting can take. */
  datatype GripSetting =
    | PublisherSetting(publisher: Publisher)
    | UrlSetting(url: Url)
    | DescriptorSetting(descriptor: GripConfig)
    | DescriptorListSetting(descriptors: seq<GripConfig>)

  /** `IServeGripConfig`: every field optional. */
  datatype Config = Config(
    grip: Option<GripSetting>,
    gripVerifyKey: Option<Key>,
    gripProxyRequired: Option<bool>,
    prefix: Option<string>,
    publisherClass: Option<PublisherClass>)

  /** The normalised `gripProxies` field. */
  datatype GripProxies = ByReference(publisher: Publisher) | ByUrl(url: Url) | ByDescriptors(descriptors: seq<GripConfig>)

  /** The memoised `PrefixedPublisher`: the clients it publishes through and its channel prefix. */
  datatype PrefixedPublisher = PrefixedPublisher(clients: seq<Client>, prefix: string)

  /** The configuration state of one adapter instance. */
  datatype ServeGrip = ServeGrip(
    gripProxies: Option<GripProxies>,
    prefix: string,
    isGripProxyRequired: bool,
    publisherClass: Option<PublisherClass>,
    publisher: Option<PrefixedPublisher>)

  datatype ConfigError = PublisherAlreadyInstantiated | NoGripConfiguration

  /** `url.searchParams.get(name)`: the first value given for `name`. */
  function QueryGet(q: seq<(string, string)>, name: string): (r: Option<string>)
    ensures r.None? <==> forall i :: 0 <= i < |q| ==> q[i].0 != name
    ensures r.Some? ==> exists i :: 0 <= i < |q| && q[i] == (name, r.value)
                                    && forall j :: 0 <= j < i ==> q[j].0 != name
  {
    if |q| == 0 then None
    else if q[0].0 == name then Some(q[0].1)
    else
      var r := QueryGet(q[1..], name);
      assert forall i :: 1 <= i < |q| ==> q[i] == q[1..][i - 1];
      r
  }

  /** The text a key takes in a URL: a string as is, a `Buffer` as `base64:` and its encoding. */
  function VerifyKeyValue(k: Key, base64: Bytes -> string): string {
    match k
    case TextKey(s) => s
    case BinaryKey(b) => "base64:" + base64(b)
  }

  /** Adds `verify-key` to the URL's query when the query has none; otherwise the URL is unchanged. */
  function MergeVerifyKey(u: Url, k: Key, base64: Bytes -> string): (r: Url)
    ensures r.base == u.base
    ensures QueryGet(u.query, "verify-key").Some? ==> r == u
    ensures QueryGet(u.query, "verify-key").None? ==>
              r.query == u.query + [("verify-key", VerifyKeyValue(k, base64))]
  {
    if QueryGet(u.query, "verify-key").Some? then u
    else u.(query := u.query + [("verify-key", VerifyKeyValue(k, base64))])
  }

  /** After merging, the URL's `verify-key` is its own if it had one, else the configured key. */
  lemma {:induction false} MergedUrlHasKey(u: Url, k: Key, base64: Bytes -> string)
    ensures QueryGet(MergeVerifyKey(u, k, base64).query, "verify-key")
            == Some(QueryGet(u.query, "verify-key").GetOr(VerifyKeyValue(k, base64)))
  {
    if QueryGet(u.query, "verify-key").None? {
      QueryGetAppended(u.query, "verify-key", VerifyKeyValue(k, base64));
    }
  }

  lemma {:induction false} QueryGetAppended(q: seq<(string, string)>, name: string, v: string)
    requires QueryGet(q, name).None?
    ensures QueryGet(q + [(name, v)], name) == Some(v)
    decreases |q|
  {
    if |q| > 0 {
      assert (q + [(name, v)])[1..] == q[1..] + [(name, v)];
      QueryGetAppended(q[1..], name, v);
    }
  }

  /** `{...config, verify_key: config.verify_key ?? gripVerifyKey}` for every descriptor. */
  function CopyVerifyKey(ds: seq<GripConfig>, k: Option<Key>): (r: seq<GripConfig>)
    ensures |r| == |ds|
    ensures forall i :: 0 <= i < |ds| ==>
              && r[i].controlUri == ds[i].controlUri
              && r[i].verifyIss == ds[i].verifyIss
              && r[i].verifyKey == (if ds[i].verifyKey.Some? then ds[i].verifyKey else k)
  {
    seq(|ds|, i requires 0 <= i < |ds| =>
      if ds[i].verifyKey.None? && k.Some? then ds[i].(verifyKey := k) else ds[i])
  }

  /** `d2` is descriptor `d` after the verify-key copy: URI and issuer kept, its own key or else `k`. */
  predicate KeyCopied(d: GripConfig, d2: GripConfig, k: Option<Key>) {
    && d2.controlUri == d.controlUri
    && d2.verifyIss == d.verifyIss
    && d2.verifyKey == (if d.verifyKey.Some? then d.verifyKey else k)
  }

  /**
   * The `gripProxies` value `applyConfig` derives from a `grip` setting and `gripVerifyKey`:
   * a publisher is kept by reference, a URL gains the key in its query unless it names one,
   * and every descriptor, single or in a list, gets the key unless it has its own.
   */
  function Normalize(setting: GripSetting, k: Option<Key>, base64: Bytes -> string): (r: GripProxies)
    ensures setting.PublisherSetting? ==> r == ByReference(setting.publisher)
    ensures setting.UrlSetting? ==>
              && r.ByUrl? && r.url.base == setting.url.base
              && |setting.url.query| <= |r.url.query| <= |setting.url.query| + 1
              && r.url.query[..|setting.url.query|] == setting.url.query
              && QueryGet(r.url.query, "verify-key")
                 == (if k.Some? then Some(QueryGet(setting.url.query, "verify-key").GetOr(VerifyKeyValue(k.value, base64)))
                     else QueryGet(setting.url.query, "verify-key"))
    ensures setting.DescriptorSetting? ==>
              r.ByDescriptors? && |r.descriptors| == 1 && KeyCopied(setting.descriptor, r.descriptors[0], k)
    ensures setting.DescriptorListSetting? ==>
              && r.ByDescriptors? && |r.descriptors| == |setting.descriptors|
              && forall i :: 0 <= i < |setting.descriptors| ==> KeyCopied(setting.descriptors[i], r.descriptors[i], k)
  {
    match setting
    case PublisherSetting(p) => ByReference(p)
    case UrlSetting(u) =>
      if k.Some? then
        MergedUrlHasKey(u, k.value, base64);
        ByUrl(MergeVerifyKey(u, k.value, base64))
      else ByUrl(u)
    case DescriptorSetting(d) => ByDescriptors(CopyVerifyKey([d], k))
    case DescriptorListSetting(ds) => ByDescriptors(CopyVerifyKey(ds, k))
  }

  /** `applyConfig`: refused once a publisher exists; otherwise replaces every setting. */
  function ApplyConfig(sg: ServeGrip, cfg: Config, base64: Bytes -> string): (r: Result<ServeGrip, ConfigError>)
    ensures sg.publisher.Some? <==> r == Failure(PublisherAlreadyInstantiated)
    ensures r.Success? ==>
              && r.value.publisher.None?
              && r.value.isGripProxyRequired == cfg.gripProxyRequired.GetOr(false)
              && r.value.prefix == cfg.prefix.GetOr("")
              && r.value.publisherClass == cfg.publisherClass
              && (cfg.grip.None? <==> r.value.gripProxies.None?)
              && (cfg.grip.Some? ==> r.value.gripProxies == Some(Normalize(cfg.grip.value, cfg.gripVerifyKey, base64)))
  {
    if sg.publisher.Some? then Failure(PublisherAlreadyInstantiated)
    else
      var proxies := match cfg.grip
        case None => None
        case Some(setting) => Some(Normalize(setting, cfg.gripVerifyKey, base64));
      Success(ServeGrip(proxies, cfg.prefix.GetOr(""), cfg.gripProxyRequired.GetOr(false), cfg.publisherClass, None))
  }

  /** A new adapter: the field initialisers, then `applyConfig(config)`, which cannot fail yet. */
  function NewServeGrip(cfg: Config, base64: Bytes -> string): (sg: ServeGrip)
    ensures sg.publisher.None?
    ensures sg.gripProxies == (if cfg.grip.Some? then Some(Normalize(cfg.grip.value, cfg.gripVerifyKey, base64)) else None)
    ensures sg.prefix == cfg.prefix.GetOr("") && sg.isGripProxyRequired == cfg.gripProxyRequired.GetOr(false)
    ensures sg.publisherClass == cfg.publisherClass
  {
    var r := ApplyConfig(ServeGrip(None, "", false, None, None), cfg, base64);
    r.value
  }

  /** The clients of the publisher built from normalised proxies. */
  function ClientsOf(proxies: GripProxies, urlClient: Url -> Client): seq<Client> {
    match proxies
    case ByReference(p) => p.clients
    case ByUrl(u) => [urlClient(u)]
    case ByDescriptors(ds) => seq(|ds|, i requires 0 <= i < |ds| => Client(ds[i].verifyKey, ds[i].verifyIss))
  }

  /** With a verify key configured, every descriptor-built client carries a key. */
  lemma DescriptorClientsKeyed(ds: seq<GripConfig>, k: Key, urlClient: Url -> Client)
    ensures forall i :: 0 <= i < |ds| ==>
              ClientsOf(ByDescriptors(CopyVerifyKey(ds, Some(k))), urlClient)[i].verifyKey.Some?
  {
  }

  /** The publisher as `getPublisher` returns it, building and memoising it when needed. */
  function EnsurePublisher(sg: ServeGrip, urlClient: Url -> Client): (r: (PrefixedPublisher, ServeGrip))
    requires sg.gripProxies.Some? || sg.publisher.Some?
    ensures r.1 == sg.(publisher := Some(r.0))
    ensures sg.publisher.Some? ==> r.0 == sg.publisher.value
    ensures sg.publisher.None? ==>
              r.0.clients == ClientsOf(sg.gripProxies.value, urlClient) && r.0.prefix == sg.prefix
  {
    if sg.publisher.Some? then (sg.publisher.value, sg)
    else
      var p := PrefixedPublisher(ClientsOf(sg.gripProxies.value, urlClient), sg.prefix);
      (p, sg.(publisher := Some(p)))
  }

  /** `getPublisher()`: fails without a configuration, and builds the publisher only once. */
  function GetPublisher(sg: ServeGrip, urlClient: Url -> Client): (r: Result<(PrefixedPublisher, ServeGrip), ConfigError>)
    ensures r.Failure? <==> sg.publisher.None? && sg.gripProxies.None?
    ensures r.Failure? ==> r.error == NoGripConfiguration
    ensures r.Success? ==> r.value.1 == sg.(publisher := Some(r.value.0))
    ensures sg.publisher.Some? ==> r == Success((sg.publisher.value, sg))
    ensures r.Success? && sg.publisher.None? ==>
              r.value.0 == PrefixedPublisher(ClientsOf(sg.gripProxies.value, urlClient), sg.prefix)
  {
    if sg.publisher.None? && sg.gripProxies.None? then Failure(NoGripConfiguration)
    else Success(EnsurePublisher(sg, urlClient))
  }

  /** Memoisation: a second `getPublisher()` returns the same publisher and changes nothing. */
  lemma GetPublisherMemoised(sg: ServeGrip, urlClient: Url -> Client)
    requires GetPublisher(sg, urlClient).Success?
    ensures var (p, sg') := GetPublisher(sg, urlClient).value;
            GetPublisher(sg', urlClient) == Success((p, sg'))
  {
  }

  /** The guard: once `getPublisher()` has succeeded, `applyConfig` is refused. */
  lemma ReconfigureAfterPublisherFails(sg: ServeGrip, urlClient: Url -> Client, cfg: Config, base64: Bytes -> string)
    requires GetPublisher(sg, urlClient).Success?
    ensures ApplyConfig(GetPublisher(sg, urlClient).value.1, cfg, base64) == Failure(PublisherAlreadyInstantiated)
  {
  }

  /** A freshly configured adapter publishes with its configured prefix through the configured proxies. */
  lemma FreshPublisherFollowsConfig(cfg: Config, base64: Bytes -> string, urlClient: Url -> Client)
    requires cfg.grip.Some?
    ensures var sg := NewServeGrip(cfg, base64);
            GetPublisher(sg, urlClient)
            == Success((PrefixedPublisher(ClientsOf(Normalize(cfg.grip.value, cfg.gripVerifyKey, base64), urlClient),
                                          cfg.prefix.GetOr("")),
                        sg.(publisher := Some(PrefixedPublisher(ClientsOf(Normalize(cfg.grip.value, cfg.gripVerifyKey, base64), urlClient),
                                                                cfg.prefix.GetOr(""))))))
  {
  }
}

=== FILE: connect_grip.dfy ===
/**
 * The Connect/Express generation of the adapter (`ConnectGrip.ts`): its configuration,
 * its publisher memoisation, its `run` over Node requests and responses, and the
 * `writeHead`/`end` patch it installs on proxied requests only.
 */
module ConnectGrip {
  import opened Wrappers
  import opened Http
  import opened GripToolkit
  import opened Classification
  import opened WsOverHttp
  import opened ResponseGripState
  import opened ServeGripBase

  /** `IConnectGripConfig`, as `applyConfig` reads it. */
  datatype ConnectConfig = ConnectConfig(
    gripProxies: Option<seq<LegacyProxy>>,
    gripPubServers: Option<seq<LegacyProxy>>,
    gripProxyRequired: Option<bool>,
    gripPrefix: Option<string>)

  /** A built `PrefixedPublisher`: the configurations of its clients in order, and its prefix. */
  datatype ConnectPublisher = ConnectPublisher(configs: seq<LegacyProxy>, prefix: string)

  /** The configuration state of one `ConnectGrip` instance. */
  datatype Connect = Connect(
    gripProxies: Option<seq<LegacyProxy>>,
    pubServers: Option<seq<LegacyProxy>>,
    prefix: string,
    isGripProxyRequired: bool,
    publisher: Option<ConnectPublisher>)

  /**
   * `applyConfig`: every setting replaced, with defaults for the proxy requirement and the
   * prefix. There is no guard, so an already-built publisher survives reconfiguration.
   */
  function ApplyConnectConfig(c: Connect, cfg: ConnectConfig): (r: Connect)
    ensures r.gripProxies == cfg.gripProxies && r.pubServers == cfg.gripPubServers
    ensures r.isGripProxyRequired == (cfg.gripProxyRequired.Some? && cfg.gripProxyRequired.value)
    ensures r.prefix == (if cfg.gripPrefix.Some? then cfg.gripPrefix.value else "")
    ensures r.publisher == c.publisher
  {
    Connect(cfg.gripProxies, cfg.gripPubServers, cfg.gripPrefix.GetOr(""), cfg.gripProxyRequired.GetOr(false), c.publisher)
  }

  /** The constructor: field defaults, then `applyConfig`. */
  function NewConnect(cfg: ConnectConfig): Connect {
    ApplyConnectConfig(Connect(None, None, "", false, None), cfg)
  }

  /**
   * `getPublisher`: built once from the proxies followed by the publishing servers, with
   * the prefix in force at that moment, then returned unchanged.
   */
  function ConnectGetPublisher(c: Connect): (r: (ConnectPublisher, Connect))
    ensures r.1 == c.(publisher := Some(r.0))
    ensures c.publisher.Some? ==> r.0 == c.publisher.value
    ensures c.publisher.None? ==>
              r.0 == ConnectPublisher(c.gripProxies.GetOr([]) + c.pubServers.GetOr([]), c.prefix)
  {
    if c.publisher.Some? then (c.publisher.value, c)
    else
      var p := ConnectPublisher(c.gripProxies.GetOr([]) + c.pubServers.GetOr([]), c.prefix);
      (p, c.(publisher := Some(p)))
  }

  /**
   * Reconfiguring after the publisher was built leaves the old publisher in use: the next
   * `getPublisher` still publishes with the old prefix and clients.
   */
  lemma StalePublisherAfterReconfigure(c: Connect, cfg: ConnectConfig)
    ensures var (p, c1) := ConnectGetPublisher(c);
            ConnectGetPublisher(ApplyConnectConfig(c1, cfg)).0 == p
  {
  }

  /** `req.grip` of this generation: no `needsSigned`. */
  datatype ConnectRequestGrip = ConnectRequestGrip(isProxied: bool, isSigned: bool, wsContext: Option<WsContext>)

  datatype ConnectRequest = ConnectRequest(verb: string, headers: IncomingHeaders, body: Bytes, grip: Option<ConnectRequestGrip>)

  /**
   * A Node response as `run` leaves it: status, the grip attached, the chunk ended with,
   * and the WebSocket context the `writeHead`/`end` patch captured, if it was installed.
   */
  datatype ConnectResponse = ConnectResponse(statusCode: int, grip: Option<ResponseGrip>, ended: Option<string>,
                                             patch: Option<Option<WsContext>>)

  /** The flags `run` computes from `grip-sig` and the configured proxies. */
  function ConnectFlags(c: Connect, req: ConnectRequest, validSig: (string, Key, Option<string>) -> bool): LegacyFlags {
    ClassifyLegacy(Flatten(Lookup(req.headers, "grip-sig")), c.gripProxies, validSig)
  }

  /** The WebSocket-over-HTTP test of `run` on the flattened headers. */
  predicate ConnectIsWsOverHttp(req: ConnectRequest) {
    IsWsOverHttp(req.verb, Flatten(Lookup(req.headers, "content-type")), Flatten(Lookup(req.headers, "accept")))
  }

  /** An error answer: status and body, nothing attached. */
  function Answer(res: ConnectResponse, status: int, body: string): ConnectResponse {
    res.(statusCode := status, ended := Some(body))
  }

  /**
   * `run` on a request and response: the 501 when a proxy is required and absent, the
   * context errors for WebSocket-over-HTTP requests, and otherwise the request grip, a
   * response grip whose instructions are available exactly when the request is proxied,
   * and the patch, installed only for proxied requests.
   */
  function ConnectRun(c: Connect, t: Toolkit, req: ConnectRequest, res: ConnectResponse): (r: (ConnectRequest, ConnectResponse))
    ensures var f := ConnectFlags(c, req, t.validSig);
            !f.isProxied && c.isGripProxyRequired ==> r == (req, Answer(res, 501, NotImplementedBody))
    ensures var f := ConnectFlags(c, req, t.validSig);
            var (req', res') := r;
            || (!f.isProxied && c.isGripProxyRequired)
            || (ConnectIsWsOverHttp(req) && req' == req
                && (res' == Answer(res, 400, MissingConnectionIdBody) || res' == Answer(res, 400, DecodeErrorBody)))
            || (&& req'.grip.Some? && req'.grip.value.isProxied == f.isProxied && req'.grip.value.isSigned == f.isSigned
                && (req'.grip.value.wsContext.Some? <==> ConnectIsWsOverHttp(req))
                && (req'.grip.value.wsContext.Some? ==> req'.grip.value.wsContext.value.prefix == c.prefix)
                && res'.grip == Some(ResponseGrip(f.isProxied, None))
                && (res'.patch.Some? <==> f.isProxied)
                && res'.statusCode == res.statusCode && res'.ended == res.ended)
  {
    var f := ConnectFlags(c, req, t.validSig);
    if !f.isProxied && c.isGripProxyRequired then (req, Answer(res, 501, NotImplementedBody))
    else
      var ctx: Result<Option<WsContext>, WsContextError> :=
        if !ConnectIsWsOverHttp(req) then Success(None)
        else match BuildWsContext(req.headers, req.body, c.prefix, t.decodeEvents)
          case Success(w) => Success(Some(w))
          case Failure(e) => Failure(e);
      match ctx
      case Failure(e) => (req, Answer(res, 400, ContextErrorResponse(e)))
      case Success(w) =>
        var req' := req.(grip := Some(ConnectRequestGrip(f.isProxied, f.isSigned, w)));
        var res' := res.(grip := Some(ResponseGrip(f.isProxied, None)),
                         patch := if f.isProxied then Some(w) else None);
        (req', res')
  }

  /** Not proxied while a proxy is required: 501 with its body, and nothing attached. */
  lemma ConnectProxyRequired(c: Connect, t: Toolkit, req: ConnectRequest, res: ConnectResponse)
    requires c.isGripProxyRequired && !ConnectFlags(c, req, t.validSig).isProxied
    ensures ConnectRun(c, t, req, res) == (req, res.(statusCode := 501, ended := Some(NotImplementedBody)))
  {
  }

  /** A WebSocket-over-HTTP request without `connection-id` gets 400 and nothing attached. */
  lemma ConnectMissingConnectionId(c: Connect, t: Toolkit, req: ConnectRequest, res: ConnectResponse)
    requires ConnectFlags(c, req, t.validSig).isProxied || !c.isGripProxyRequired
    requires ConnectIsWsOverHttp(req) && Flatten(Lookup(req.headers, "connection-id")).None?
    ensures ConnectRun(c, t, req, res) == (req, res.(statusCode := 400, ended := Some(MissingConnectionIdBody)))
  {
  }

  /** Undecodable events get 400 and nothing attached. */
  lemma ConnectDecodeFailure(c: Connect, t: Toolkit, req: ConnectRequest, res: ConnectResponse)
    requires ConnectFlags(c, req, t.validSig).isProxied || !c.isGripProxyRequired
    requires ConnectIsWsOverHttp(req) && Flatten(Lookup(req.headers, "connection-id")).Some?
    requires t.decodeEvents(req.body).None?
    ensures ConnectRun(c, t, req, res) == (req, res.(statusCode := 400, ended := Some(DecodeErrorBody)))
  {
  }

  /**
   * On success the request carries the flags and, for WebSocket-over-HTTP, a context with
   * the connection id, the meta map, the decoded events and the configured prefix; the
   * patch is installed exactly when the request is proxied.
   */
  lemma ConnectAttached(c: Connect, t: Toolkit, req: ConnectRequest, res: ConnectResponse)
    requires ConnectFlags(c, req, t.validSig).isProxied || !c.isGripProxyRequired
    requires ConnectIsWsOverHttp(req) ==> BuildWsContext(req.headers, req.body, c.prefix, t.decodeEvents).Success?
    ensures var f := ConnectFlags(c, req, t.validSig);
            var (req', res') := ConnectRun(c, t, req, res);
            && req'.grip.Some? && req'.grip.value.isProxied == f.isProxied && req'.grip.value.isSigned == f.isSigned
            && (req'.grip.value.wsContext.Some? <==> ConnectIsWsOverHttp(req))
            && (req'.grip.value.wsContext.Some? ==>
                  var w := req'.grip.value.wsContext.value;
                  && Some(w.id) == Flatten(Lookup(req.headers, "connection-id"))
                  && w.meta == MetaMap(req.headers) && w.prefix == c.prefix
                  && Some(w.inEvents) == t.decodeEvents(req.body))
            && res'.grip == Some(ResponseGrip(f.isProxied, None))
            && (res'.patch.Some? <==> f.isProxied)
            && res'.statusCode == res.statusCode && res'.ended == res.ended
  {
  }

  /**
   * This generation offers instructions on proxied WebSocket-over-HTTP requests too: the
   * first `startInstruct` there succeeds.
   */
  lemma InstructAvailableOverWebSocket(c: Connect, t: Toolkit, req: ConnectRequest, res: ConnectResponse)
    requires ConnectFlags(c, req, t.validSig).isProxied
    requires ConnectIsWsOverHttp(req) && BuildWsContext(req.headers, req.body, c.prefix, t.decodeEvents).Success?
    ensures var (req', res') := ConnectRun(c, t, req, res);
            && req'.grip.value.wsContext.Some?
            && StartInstruct(res'.grip.value).0 == Success(NewInstruct())
  {
  }

  /**
   * The patched `writeHead` for a proxied request: 200 with a context merges the context's
   * headers; otherwise a started instruct turns 304 into 200 "OK" with instruct status 304
   * and has its headers merged, channels unprefixed. Returns the head passed on and the
   * instruct as the call leaves it.
   */
  function ConnectWriteHead(head: Head, ws: Option<WsContext>, gi: Option<GripInstruct>, t: Toolkit)
    : (r: (Head, Option<GripInstruct>))
    ensures head.status == 200 && ws.Some? ==>
              r == (head.(headers := Some(Assign(head.headers, t.wsHeaders(ws.value)))), gi)
    ensures !(head.status == 200 && ws.Some?) && gi.None? ==> r == (head, None)
    ensures !(head.status == 200 && ws.Some?) && gi.Some? ==>
              var g := gi.value;
              var g' := if head.status == 304 then g.(status := Some(304)) else g;
              && r.1 == Some(g')
              && g'.channels == g.channels
              && r.0.headers == Some(Assign(head.headers, t.instructHeaders(g')))
              && (head.status == 304 ==> r.0.status == 200 && r.0.reason == Some("OK"))
              && (head.status != 304 ==> r.0.status == head.status && r.0.reason == head.reason)
  {
    if head.status == 200 && ws.Some? then
      (head.(headers := Some(Assign(head.headers, t.wsHeaders(ws.value)))), gi)
    else match gi
      case None => (head, None)
      case Some(g) =>
        if head.status == 304 then
          var g' := g.(status := Some(304));
          (Head(200, Some("OK"), Some(Assign(head.headers, t.instructHeaders(g')))), Some(g'))
        else (head.(headers := Some(Assign(head.headers, t.instructHeaders(g)))), Some(g))
  }

  /** Only 200 counts as success for a WebSocket-over-HTTP response: 204 passes through. */
  lemma NoContentNotRewritten(head: Head, ws: WsContext, t: Toolkit)
    requires head.status == 204
    ensures ConnectWriteHead(head, Some(ws), None, t) == (head, None)
  {
  }

  /**
   * The patched `end`: the encoded outgoing events are written first when the status is
   * 200 and there is a context; then the handler's chunk, if any.
   */
  function ConnectEnd(statusCode: int, chunk: Option<Bytes>, ws: Option<WsContext>, encode: seq<WsEvent> -> Bytes)
    : (sent: seq<Bytes>)
    ensures statusCode == 200 && ws.Some? ==>
              sent == [encode(ws.value.outEvents)] + (if chunk.Some? then [chunk.value] else [])
    ensures !(statusCode == 200 && ws.Some?) ==> sent == (if chunk.Some? then [chunk.value] else [])
  {
    var tail := if chunk.Some? then [chunk.value] else [];
    if statusCode == 200 && ws.Some? then [encode(ws.value.outEvents)] + tail else tail
  }

  /**
   * A 200 WebSocket-over-HTTP response ended without a chunk carries a body that decodes to
   * exactly the outgoing events.
   */
  lemma ConnectWsBodyDecodes(ws: WsContext, t: Toolkit)
    requires CodecRoundTrips(t)
    ensures t.decodeEvents(Concat(ConnectEnd(200, None, Some(ws), t.encodeEvents))) == Some(ws.outEvents)
  {
    var sent := ConnectEnd(200, None, Some(ws), t.encodeEvents);
    assert sent == [t.encodeEvents(ws.outEvents)];
    assert Concat(sent[1..]) == [];
    assert Concat(sent) == t.encodeEvents(ws.outEvents);
  }

  /**
   * `exec`: the next function is called in every case, with the error when `run` threw;
   * a rejected request still reaches it.
   */
  function ConnectExec(o: RunOutcome): (c: Continuation)
    ensures c != Stop
    ensures c.NextWithError? <==> o.Threw?
    ensures o.Threw? ==> c == NextWithError(o.err)
  {
    match o
    case Threw(e) => NextWithError(e)
    case Returned(_) => Next
  }

  /**
   * The two `exec` rules part on exactly one outcome: a `run` that returned false stops
   * the chain in the current adapter and continues it in this generation.
   */
  lemma ExecGenerationsDiffer(o: RunOutcome)
    ensures Exec(o) != ConnectExec(o) <==> o == Returned(false)
  {
  }
}

=== FILE: hono_serve_grip.dfy ===
/**
 * The Hono binding (`hono/ServeGrip.ts`): request and response state records as the
 * platform's request and response, and the `serveGrip` middleware, which runs the
 * adapter, answers errors itself, exposes the merged grip context to the handler and
 * rewrites the handler's response afterwards.
 */
module HonoServeGrip {
  import opened Wrappers
  import opened Text
  import opened Http
  import opened GripToolkit
  import opened WsOverHttp
  import opened ResponseGripState
  import opened ServeGripConfig
  import opened ServeGripBase
  import opened ResponseRewrite

  /** The raw Fetch request Hono wraps: method, header entries in arrival order, body bytes. */
  datatype HonoRequest = HonoRequest(verb: string, headers: seq<(string, string)>, body: Bytes)

  /** `RequestState`: the wrapped request and the request grip once `run` attached it. */
  datatype RequestState = RequestState(request: HonoRequest, grip: Option<RequestGrip>)

  /**
   * `ResponseState`: what `run` recorded for the response — the response grip, the status
   * and body of an error answer, and whether `onAfterSetup` installed the instruct getter.
   */
  datatype ResponseState = ResponseState(grip: Option<ResponseGrip>, status: Option<int>, endChunk: Option<string>,
                                         getterInstalled: bool)

  /** A body handed to `new Response(...)`: a string or encoded bytes. */
  datatype Body = TextBody(text: string) | BytesBody(bytes: Bytes)

  /** Hono's `c.res`. */
  datatype HonoResponse = HonoResponse(status: int, headers: Headers, body: Body)

  /** The values of every header entry whose name matches `key` regardless of case, in order. */
  function MatchingValues(hs: seq<(string, string)>, key: string): (vs: seq<string>)
    ensures |vs| == 0 <==> forall i :: 0 <= i < |hs| ==> Lower(hs[i].0) != Lower(key)
  {
    if |hs| == 0 then []
    else (if Lower(hs[0].0) == Lower(key) then [hs[0].1] else []) + MatchingValues(hs[1..], key)
  }

  /** Values joined by the separator `", "`. */
  function JoinValues(vs: seq<string>): string {
    if |vs| == 0 then "" else if |vs| == 1 then vs[0] else vs[0] + ", " + JoinValues(vs[1..])
  }

  /**
   * The Fetch `Headers.get(key)` of the raw request, with `null` turned into absence: names
   * compare without regard to case and repeated headers come back joined by `", "`.
   */
  function HeadersGet(hs: seq<(string, string)>, key: string): (r: Option<string>)
    ensures r.None? <==> forall i :: 0 <= i < |hs| ==> Lower(hs[i].0) != Lower(key)
    ensures r.Some? ==> r.value == JoinValues(MatchingValues(hs, key))
  {
    var vs := MatchingValues(hs, key);
    if |vs| == 0 then None else Some(JoinValues(vs))
  }

  /** A header arriving after the others adds its value at the end of the matching values. */
  lemma {:induction false} MatchingValuesAppend(hs: seq<(string, string)>, n: string, v: string, key: string)
    ensures MatchingValues(hs + [(n, v)], key)
            == MatchingValues(hs, key) + (if Lower(n) == Lower(key) then [v] else [])
  {
    if |hs| > 0 {
      assert (hs + [(n, v)])[1..] == hs[1..] + [(n, v)];
      MatchingValuesAppend(hs[1..], n, v, key);
    }
  }

  /** Joining one more value appends the separator and the value. */
  lemma {:induction false} JoinValuesAppend(vs: seq<string>, w: string)
    requires |vs| > 0
    ensures JoinValues(vs + [w]) == JoinValues(vs) + ", " + w
  {
    if |vs| > 1 {
      assert (vs + [w])[1..] == vs[1..] + [w];
      JoinValuesAppend(vs[1..], w);
    }
  }

  /**
   * Reading a header after one more arrives: a matching name starts the value or adds
   * `", "` and its value to it, and any other name leaves the answer unchanged.
   */
  lemma HeadersGetAppend(hs: seq<(string, string)>, n: string, v: string, key: string)
    ensures HeadersGet(hs + [(n, v)], key)
            == if Lower(n) != Lower(key) then HeadersGet(hs, key)
               else if HeadersGet(hs, key).None? then Some(v)
               else Some(HeadersGet(hs, key).value + ", " + v)
  {
    MatchingValuesAppend(hs, n, v, key);
    var vs := MatchingValues(hs, key);
    if Lower(n) == Lower(key) {
      if |vs| > 0 {
        JoinValuesAppend(vs, v);
      } else {
        assert MatchingValues(hs + [(n, v)], key) == [v];
      }
    } else {
      assert MatchingValues(hs + [(n, v)], key) == vs;
    }
  }

  /** Header lookup does not depend on the case of the name asked for. */
  lemma {:induction false} MatchingValuesCaseInsensitive(hs: seq<(string, string)>, a: string, b: string)
    requires Lower(a) == Lower(b)
    ensures MatchingValues(hs, a) == MatchingValues(hs, b)
  {
    if |hs| > 0 {
      MatchingValuesCaseInsensitive(hs[1..], a, b);
    }
  }

  /** `getRequestHeaderValue` gives the same answer for `Grip-Sig` and `grip-sig`. */
  lemma HeadersGetCaseInsensitive(hs: seq<(string, string)>, a: string, b: string)
    requires Lower(a) == Lower(b)
    ensures HeadersGet(hs, a) == HeadersGet(hs, b)
  {
    MatchingValuesCaseInsensitive(hs, a, b);
  }

  /** A header that arrives once is read back as it arrived. */
  lemma HeadersGetSingle(hs: seq<(string, string)>, i: nat, key: string)
    requires i < |hs| && Lower(hs[i].0) == Lower(key)
    requires forall j :: 0 <= j < |hs| && j != i ==> Lower(hs[j].0) != Lower(key)
    ensures HeadersGet(hs, key) == Some(hs[i].1)
  {
    MatchingValuesSingle(hs, i, key);
  }

  lemma {:induction false} MatchingValuesSingle(hs: seq<(string, string)>, i: nat, key: string)
    requires i < |hs| && Lower(hs[i].0) == Lower(key)
    requires forall j :: 0 <= j < |hs| && j != i ==> Lower(hs[j].0) != Lower(key)
    ensures MatchingValues(hs, key) == [hs[i].1]
  {
    if i == 0 {
      assert forall j :: 0 <= j < |hs[1..]| ==> Lower(hs[1..][j].0) != Lower(key) by {
        forall j | 0 <= j < |hs[1..]| ensures Lower(hs[1..][j].0) != Lower(key) {
          assert hs[1..][j] == hs[j + 1];
        }
      }
    } else {
      assert forall j :: 0 <= j < |hs[1..]| && j != i - 1 ==> Lower(hs[1..][j].0) != Lower(key) by {
        forall j | 0 <= j < |hs[1..]| && j != i - 1 ensures Lower(hs[1..][j].0) != Lower(key) {
          assert hs[1..][j] == hs[j + 1];
        }
      }
      MatchingValuesSingle(hs[1..], i - 1, key);
    }
  }

  /** The raw headers as the toolkit's context builder reads them: lower-case names, string values. */
  function AsIncoming(hs: seq<(string, string)>): (r: IncomingHeaders)
    ensures |r| == |hs|
    ensures forall i :: 0 <= i < |hs| ==> r[i] == (Lower(hs[i].0), Single(hs[i].1))
  {
    seq(|hs|, i requires 0 <= i < |hs| => (Lower(hs[i].0), Single(hs[i].1)))
  }

  /** The toolkit's `isWsOverHttp` applied to the raw request. */
  predicate IsRequestWsOverHttp(req: HonoRequest) {
    IsWsOverHttp(req.verb, HeadersGet(req.headers, "content-type"), HeadersGet(req.headers, "accept"))
  }

  /**
   * `getRequestWebSocketContext(req)` as written: the toolkit's context builder called
   * without a prefix, so a context it builds carries the builder's default, the empty one.
   */
  function GetRequestWebSocketContext(t: Toolkit, req: RequestState): (r: Result<WsContext, WsContextError>)
    ensures r.Success? ==> r.value.prefix == ""
    ensures r != Failure(OtherFailure)
  {
    BuildWsContext(AsIncoming(req.request.headers), req.request.body, "", t.decodeEvents)
  }

  /**
   * The Hono `ServeGrip` class as a platform. Its context builder is the toolkit's, which
   * takes the prefix the context is to carry: `ServeGripBase.RunAsWritten` hands it none,
   * which is `getRequestWebSocketContext` as written, and `ServeGripBase.Run` hands it the
   * configured prefix, which is the corrected binding. `setResponseStatus` and
   * `endResponse` only record the status and the chunk, and `onAfterSetup` only installs
   * the instruct getter.
   */
  function HonoPlatform(t: Toolkit): (p: Platform<RequestState, ResponseState>)
    ensures RequestGripRoundTrips(p)
    ensures forall res: ResponseState, code: int, chunk: string ::
              p.endResponse(p.setResponseStatus(res, code), chunk) == ResponseState(res.grip, Some(code), Some(chunk), res.getterInstalled)
    ensures forall res: ResponseState, m: Mode :: p.onAfterSetup(res, m) == res.(getterInstalled := true)
    ensures forall req: RequestState :: p.getRequestWebSocketContext(req, "") == GetRequestWebSocketContext(t, req)
  {
    Platform(
      (req: RequestState) => req.grip,
      (req: RequestState, g: RequestGrip) => req.(grip := Some(g)),
      (req: RequestState, key: string) => HeadersGet(req.request.headers, key),
      (req: RequestState) => IsRequestWsOverHttp(req.request),
      (req: RequestState, prefix: string) => BuildWsContext(AsIncoming(req.request.headers), req.request.body, prefix, t.decodeEvents),
      (res: ResponseState, g: ResponseGrip) => res.(grip := Some(g)),
      (res: ResponseState, code: int) => res.(status := Some(code)),
      (res: ResponseState, chunk: string) => res.(endChunk := Some(chunk)),
      (res: ResponseState, m: Mode) => res.(getterInstalled := true))
  }

  /**
   * The corrected binding: handed the configured prefix, as the Connect generation's
   * context construction is, the Hono context builder gives the context that prefix.
   */
  lemma HonoContextCarriesPrefix(t: Toolkit)
    ensures ContextCarriesPrefix(HonoPlatform(t))
  {
  }

  /** The grip context the handler sees: request grip, response grip and the adapter behind `getPublisher`. */
  datatype GripContext = GripContext(
    isProxied: bool, isSigned: bool, needsSigned: bool, wsContext: Option<WsContext>,
    responseGrip: ResponseGrip, server: ServeGrip)

  /** `Object.assign({}, requestGrip, responseGrip, { getPublisher })`. */
  function MergeGrip(rg: RequestGrip, resGrip: ResponseGrip, server: ServeGrip): (c: GripContext)
    ensures RequestGrip(c.isProxied, c.isSigned, c.needsSigned, c.wsContext) == rg
    ensures c.responseGrip == resGrip && c.server == server
  {
    GripContext(rg.isProxied, rg.isSigned, rg.needsSigned, rg.wsContext, resGrip, server)
  }

  /**
   * What the downstream handler leaves behind: the response it set, the channel names of
   * each `startInstruct()`-then-`addChannel` round it made on the response grip (a round
   * whose call throws changes nothing), and the events it queued on the WebSocket context.
   */
  datatype HandlerOutcome = HandlerOutcome(response: HonoResponse, instructCalls: seq<seq<string>>, sent: seq<WsEvent>)

  const MiddlewareErrorBody := "Error in serveGrip middleware."

  /** The headers the Fetch `Response` constructor gives a string body. */
  const TextBodyHeaders: Headers := map["content-type" := "text/plain;charset=UTF-8"]

  /** The answer when `run` fails: its recorded chunk and status, with defaults for either. */
  function ErrorResponse(res: ResponseState): (r: HonoResponse)
    ensures r.status == (if res.status.Some? then res.status.value else 500)
    ensures r.body == TextBody(if res.endChunk.Some? then res.endChunk.value else MiddlewareErrorBody)
    ensures r.headers == TextBodyHeaders
  {
    HonoResponse(res.status.GetOr(500), TextBodyHeaders, TextBody(res.endChunk.GetOr(MiddlewareErrorBody)))
  }

  /**
   * The rewriting after `next()`. In WebSocket-over-HTTP mode a 200 or 204 response is
   * replaced by 200 with the context's headers and the encoded outgoing events; in
   * instruction mode a started instruct turns 304 into 200 with instruct status 304, gets
   * the configured prefix on its channels and has its headers set on the response.
   */
  function AfterNext(grip: GripContext, h: HandlerOutcome, getterInstalled: bool, prefix: string, t: Toolkit)
    : (r: HonoResponse)
    ensures grip.wsContext.Some? && IsOkOrNoContent(h.response.status) ==>
              var ctx := Queue(grip.wsContext.value, h.sent);
              r == HonoResponse(200, t.wsHeaders(ctx), BytesBody(t.encodeEvents(ctx.outEvents)))
    ensures grip.wsContext.Some? && !IsOkOrNoContent(h.response.status) ==> r == h.response
    ensures grip.wsContext.None? && (!getterInstalled || Replay(grip.responseGrip, h.instructCalls).instruct.None?)
            ==> r == h.response
    ensures grip.wsContext.None? && getterInstalled && Replay(grip.responseGrip, h.instructCalls).instruct.Some? ==>
              var g := Replay(grip.responseGrip, h.instructCalls).instruct.value;
              var g' := g.(status := if h.response.status == 304 then Some(304) else g.status,
                           channels := PrefixChannels(g.channels, prefix));
              && r.status == (if h.response.status == 304 then 200 else h.response.status)
              && r.body == h.response.body
              && r.headers.Keys == h.response.headers.Keys + t.instructHeaders(g').Keys
              && (forall k :: k in t.instructHeaders(g') ==> r.headers[k] == t.instructHeaders(g')[k])
              && (forall k :: k in h.response.headers && k !in t.instructHeaders(g') ==>
                    r.headers[k] == h.response.headers[k])
  {
    match grip.wsContext
    case Some(ctx0) =>
      var ctx := Queue(ctx0, h.sent);
      if IsOkOrNoContent(h.response.status) then
        HonoResponse(200, t.wsHeaders(ctx), BytesBody(t.encodeEvents(ctx.outEvents)))
      else h.response
    case None =>
      var gi := if getterInstalled then Replay(grip.responseGrip, h.instructCalls).instruct else None;
      match gi
      case None => h.response
      case Some(g) =>
        var notModified := h.response.status == 304;
        var g1 := if notModified then g.(status := Some(304)) else g;
        var g2 := g1.(channels := PrefixChannels(g1.channels, prefix));
        var status := if notModified then 200 else h.response.status;
        HonoResponse(status, Assign(Some(h.response.headers), t.instructHeaders(g2)), h.response.body)
  }

  /** The result of the middleware: the response, and the grip context if the handler ran. */
  datatype MiddlewareOutcome = MiddlewareOutcome(response: HonoResponse, grip: Option<GripContext>)

  /** The initial request and response state the middleware hands to `run`. */
  function InitialStates(req: HonoRequest): (RequestState, ResponseState) {
    (RequestState(req, None), ResponseState(None, None, None, false))
  }

  /**
   * `serveGrip(config)` applied to one request: a fresh adapter for the configuration, one
   * `run`, then either the error answer (the handler is not called) or the handler with the
   * merged grip context followed by the rewriting.
   */
  function Middleware(t: Toolkit, cfg: Config, req: HonoRequest, handler: GripContext -> HandlerOutcome)
    : (o: MiddlewareOutcome)
    ensures var sg := NewServeGrip(cfg, t.base64);
            var r := Run(HonoPlatform(t), t, sg, RequestState(req, None), ResponseState(None, None, None, false));
            && (o.grip.None? <==> !r.ok || r.req.grip.None? || r.res.grip.None?)
            && (o.grip.None? ==> o.response == ErrorResponse(r.res))
            && (o.grip.Some? ==>
                  && o.grip.value == MergeGrip(r.req.grip.value, r.res.grip.value, r.server)
                  && (o.grip.value.wsContext.Some? <==> IsRequestWsOverHttp(req))
                  && (o.grip.value.isProxied || !sg.isGripProxyRequired)
                  && o.grip.value.responseGrip
                     == ResponseGrip(o.grip.value.wsContext.None? && o.grip.value.isProxied, None)
                  && o.response == AfterNext(o.grip.value, handler(o.grip.value), r.res.getterInstalled, sg.prefix, t))
  {
    var sg := NewServeGrip(cfg, t.base64);
    var (rq, rs) := InitialStates(req);
    var r := Run(HonoPlatform(t), t, sg, rq, rs);
    if !r.ok || r.req.grip.None? || r.res.grip.None? then MiddlewareOutcome(ErrorResponse(r.res), None)
    else
      var grip := MergeGrip(r.req.grip.value, r.res.grip.value, r.server);
      MiddlewareOutcome(AfterNext(grip, handler(grip), r.res.getterInstalled, r.server.prefix, t), Some(grip))
  }

  /** Without a GRIP setting the middleware answers 500 with the missing-configuration body. */
  lemma MiddlewareWithoutConfiguration(t: Toolkit, cfg: Config, req: HonoRequest, handler: GripContext -> HandlerOutcome)
    requires cfg.grip.None?
    ensures Middleware(t, cfg, req, handler) == MiddlewareOutcome(HonoResponse(500, TextBodyHeaders, TextBody(NoConfigBody)), None)
  {
    var sg := NewServeGrip(cfg, t.base64);
    var (rq, rs) := InitialStates(req);
    MissingConfiguration(HonoPlatform(t), t, sg, rq, rs);
  }

  /**
   * When a proxy is required and the request is not proxied, the middleware answers 501
   * with "Not Implemented.\n" and never calls the handler.
   */
  lemma MiddlewareProxyRequired(t: Toolkit, cfg: Config, req: HonoRequest, handler: GripContext -> HandlerOutcome)
    requires cfg.grip.Some? && cfg.gripProxyRequired == Some(true)
    requires !ClassifyRequest(HonoPlatform(t), t, NewServeGrip(cfg, t.base64), RequestState(req, None)).0.isProxied
    ensures Middleware(t, cfg, req, handler)
            == MiddlewareOutcome(HonoResponse(501, TextBodyHeaders, TextBody(NotImplementedBody)), None)
  {
    var sg := NewServeGrip(cfg, t.base64);
    var (rq, rs) := InitialStates(req);
    ProxyRequired(HonoPlatform(t), t, sg, rq, rs);
  }

  /**
   * Without proxying, `startInstruct()` throws for the handler whatever it tries, so a
   * plain request's response reaches the client exactly as the handler set it.
   */
  lemma NoInstructUnlessProxied(t: Toolkit, cfg: Config, req: HonoRequest, handler: GripContext -> HandlerOutcome)
    requires var o := Middleware(t, cfg, req, handler);
             o.grip.Some? && !o.grip.value.isProxied && !IsRequestWsOverHttp(req)
    ensures var o := Middleware(t, cfg, req, handler);
            o.response == handler(o.grip.value).response
  {
    var o := Middleware(t, cfg, req, handler);
    ObtainedReachable(o.grip.value.responseGrip, handler(o.grip.value).instructCalls);
  }

  /**
   * A proxied plain request whose handler starts one instruct, adds channels and answers
   * 304 reaches the client as 200 with the headers of an instruct holding status 304 and
   * the prefixed channels, and with the handler's body.
   */
  lemma ProxiedNotModified(t: Toolkit, cfg: Config, req: HonoRequest, handler: GripContext -> HandlerOutcome,
                           names: seq<string>)
    requires var o := Middleware(t, cfg, req, handler);
             && o.grip.Some? && o.grip.value.isProxied && !IsRequestWsOverHttp(req)
             && handler(o.grip.value).instructCalls == [names] && handler(o.grip.value).response.status == 304
    ensures var o := Middleware(t, cfg, req, handler);
            var h := handler(o.grip.value);
            var g := GripInstruct(PrefixChannels(AddChannels(NewInstruct(), names).channels, NewServeGrip(cfg, t.base64).prefix),
                                  Some(304), None);
            && o.response.status == 200
            && o.response.body == h.response.body
            && o.response.headers == Assign(Some(h.response.headers), t.instructHeaders(g))
  {
    var sg := NewServeGrip(cfg, t.base64);
    var (rq, rs) := InitialStates(req);
    Attached(HonoPlatform(t), t, sg, rq, rs, sg.prefix);
    var o := Middleware(t, cfg, req, handler);
    var grip := o.grip.value;
    assert [names][1..] == [];
    assert Replay(grip.responseGrip, [names]) == StartWithChannels(grip.responseGrip, names).1;
  }

  /**
   * A WebSocket-over-HTTP exchange the handler answers with 200 or 204 reaches the client as
   * 200 with the context's headers and a body that decodes to every event queued on it.
   */
  lemma WsExchangeDecodes(t: Toolkit, grip: GripContext, h: HandlerOutcome, getterInstalled: bool, prefix: string)
    requires CodecRoundTrips(t)
    requires grip.wsContext.Some? && IsOkOrNoContent(h.response.status)
    ensures var r := AfterNext(grip, h, getterInstalled, prefix, t);
            && r.status == 200
            && r.body.BytesBody?
            && t.decodeEvents(r.body.bytes) == Some(grip.wsContext.value.outEvents + h.sent)
  {
  }
}

=== FILE: http.dfy ===
/**
 * The HTTP vocabulary of the adapter: Node-style incoming header objects (whose values
 * may be a string or a list of strings), outgoing header objects, the arguments of a
 * `writeHead` call and response bodies as byte chunks.
 */
module Http {
  import opened Wrappers

  type Bytes = seq<bv8>

  /** A value of Node's `IncomingHttpHeaders`: one string, or a list for repeated headers. */
  datatype HeaderValue = Single(text: string) | Multi(items: seq<string>)

  /**
   * A Node incoming header object, as the ordered list `Object.entries` yields. A later
   * entry for the same name stands for a later assignment to that property.
   */
  type IncomingHeaders = seq<(string, HeaderValue)>

  /** An `OutgoingHttpHeaders` object: header name to value. */
  type Headers = map<string, string>

  /** `headers[name]`: the value last assigned to property `name`, if any. */
  function Lookup(hs: IncomingHeaders, name: string): (r: Option<HeaderValue>)
    ensures r.None? <==> forall i :: 0 <= i < |hs| ==> hs[i].0 != name
    ensures r.Some? ==> exists i :: 0 <= i < |hs| && hs[i] == (name, r.value)
                                    && forall j :: i < j < |hs| ==> hs[j].0 != name
  {
    if |hs| == 0 then None
    else if hs[|hs| - 1].0 == name then Some(hs[|hs| - 1].1)
    else Lookup(hs[..|hs| - 1], name)
  }

  /**
   * `flattenHeader`: the first element of a list value (absent for an empty list, as
   * `[][0]` is `undefined` in JavaScript), a single string as it is, absence as absence.
   */
  function Flatten(v: Option<HeaderValue>): (r: Option<string>)
    ensures v.None? ==> r.None?
    ensures v.Some? && v.value.Single? ==> r == Some(v.value.text)
    ensures v.Some? && v.value.Multi? ==>
              (if |v.value.items| > 0 then r == Some(v.value.items[0]) else r.None?)
  {
    match v
    case None => None
    case Some(Single(s)) => Some(s)
    case Some(Multi(items)) => if |items| > 0 then Some(items[0]) else None
  }

  /** A flattened value read back as a single header flattens to itself. */
  lemma FlattenIdempotent(v: Option<HeaderValue>)
    ensures Flatten(v).Some? ==> Flatten(Some(Single(Flatten(v).value))) == Flatten(v)
    ensures Flatten(v).None? ==> Flatten(None) == Flatten(v)
  {
  }

  /** `Object.assign({}, base, extra)`: `extra` wins on shared names; an absent base adds nothing. */
  function Assign(base: Option<Headers>, extra: Headers): (r: Headers)
    ensures r.Keys == (if base.Some? then base.value.Keys else {}) + extra.Keys
    ensures forall k :: k in extra ==> r[k] == extra[k]
    ensures base.Some? ==> forall k :: k in base.value && k !in extra ==> r[k] == base.value[k]
  {
    (if base.Some? then base.value else map[]) + extra
  }

  /** Assigning the same headers twice is the same as assigning them once. */
  lemma AssignTwice(base: Option<Headers>, extra: Headers)
    ensures Assign(Some(Assign(base, extra)), extra) == Assign(base, extra)
  {
  }

  /** The arguments of `res.writeHead(statusCode[, reason][, headers])`, normalised. */
  datatype Head = Head(status: int, reason: Option<string>, headers: Option<Headers>)

  /** The bytes of a body written as a sequence of chunks. */
  function Concat(chunks: seq<Bytes>): Bytes {
    if |chunks| == 0 then [] else chunks[0] + Concat(chunks[1..])
  }
}

=== FILE: next_grip.dfy ===
/**
 * The Next.js generation of the adapter (`NextGrip.ts`): `checkGripStatus`, `handle` with
 * its default grip records and its late require-proxy check, the `writeHead`/`end` patch,
 * and `createGripHandler`. Its configuration and publisher code is the Connect
 * generation's, line for line, and is shared with that model.
 */
module NextGrip {
  import opened Wrappers
  import opened Http
  import opened GripToolkit
  import opened Classification
  import opened WsOverHttp
  import opened ResponseGripState
  import opened ServeGripBase
  import opened ConnectGrip

  datatype NextRequest = NextRequest(verb: string, headers: IncomingHeaders, body: Bytes, grip: Option<ConnectRequestGrip>)

  /**
   * A Next.js API response as `handle` leaves it: status, grip, the chunk ended with, and
   * the WebSocket context captured by the `writeHead`/`end` patch, if it was installed.
   */
  datatype NextResponse = NextResponse(statusCode: int, grip: Option<ResponseGrip>, ended: Option<string>,
                                       patch: Option<Option<WsContext>>)

  /** `checkGripStatus`: the keyed/keyless rule of this generation, without `needsSigned`. */
  function CheckGripStatus(c: Connect, req: NextRequest, validSig: (string, Key, Option<string>) -> bool): (f: LegacyFlags)
    ensures var sig := Flatten(Lookup(req.headers, "grip-sig"));
            && (sig.None? || c.gripProxies.None? || |c.gripProxies.value| == 0 ==> f == LegacyFlags(false, false))
            && (sig.Some? && c.gripProxies.Some? && |c.gripProxies.value| > 0 && AllTruthy(c.gripProxies.value) ==>
                  f.isProxied == f.isSigned == SomeProxyValidates(sig.value, c.gripProxies.value, validSig))
            && (sig.Some? && c.gripProxies.Some? && |c.gripProxies.value| > 0 && !AllTruthy(c.gripProxies.value) ==>
                  f == LegacyFlags(true, false))
  {
    ClassifyLegacy(Flatten(Lookup(req.headers, "grip-sig")), c.gripProxies, validSig)
  }

  predicate NextIsWsOverHttp(req: NextRequest) {
    IsWsOverHttp(req.verb, Flatten(Lookup(req.headers, "content-type")), Flatten(Lookup(req.headers, "accept")))
  }

  /**
   * `handle`: the default grips go on first, classification fills in the flags, then the
   * WebSocket-over-HTTP context is built; only afterwards does a proxied request get
   * instructions and the patch, and an unproxied one the 501 when a proxy is required.
   * Whatever happens, a request grip carrying the flags and a response grip are attached,
   * with nothing started; on a response not yet ended, instructions are available exactly
   * when the request is proxied and `handle` did not answer it. The request grip holds the
   * context exactly when one was built, and the patch, capturing that context, is
   * installed exactly for a proxied request whose context did not fail.
   */
  function Handle(c: Connect, t: Toolkit, req: NextRequest, res: NextResponse): (r: (NextRequest, NextResponse))
    ensures var f := CheckGripStatus(c, req, t.validSig);
            var (req', res') := r;
            && req'.grip.Some? && req'.grip.value.isProxied == f.isProxied && req'.grip.value.isSigned == f.isSigned
            && res'.grip.Some? && res'.grip.value.instruct.None?
            && (res.ended.None? ==> (res'.grip.value.available <==> f.isProxied && res'.ended.None?))
            && (!NextIsWsOverHttp(req) ==> req'.grip.value.wsContext.None?)
            && (NextIsWsOverHttp(req) ==>
                  var w := BuildWsContext(req.headers, req.body, c.prefix, t.decodeEvents);
                  req'.grip.value.wsContext == (if w.Success? then Some(w.value) else None))
            && (res.patch.None? ==>
                  && (res'.patch.Some? <==>
                        f.isProxied
                        && (NextIsWsOverHttp(req) ==> BuildWsContext(req.headers, req.body, c.prefix, t.decodeEvents).Success?))
                  && (res'.patch.Some? ==> res'.patch.value == req'.grip.value.wsContext))
  {
    var f := CheckGripStatus(c, req, t.validSig);
    var req0 := req.(grip := Some(ConnectRequestGrip(f.isProxied, f.isSigned, None)));
    var res0 := res.(grip := Some(Unavailable()));
    var ctx: Result<Option<WsContext>, WsContextError> :=
      if !NextIsWsOverHttp(req) then Success(None)
      else match BuildWsContext(req.headers, req.body, c.prefix, t.decodeEvents)
        case Success(w) => Success(Some(w))
        case Failure(e) => Failure(e);
    match ctx
    case Failure(e) => (req0, res0.(statusCode := 400, ended := Some(ContextErrorResponse(e))))
    case Success(w) =>
      var req1 := req0.(grip := Some(ConnectRequestGrip(f.isProxied, f.isSigned, w)));
      if f.isProxied then (req1, res0.(grip := Some(Fresh()), patch := Some(w)))
      else if c.isGripProxyRequired then (req1, res0.(statusCode := 501, ended := Some(NotImplementedBody)))
      else (req1, res0)
  }

  /**
   * The success path: with any WebSocket context built, a fresh response is left unanswered
   * or answered 501; the request grip holds the context, and a proxied request gets
   * available instructions and the patch capturing that same context.
   */
  lemma NextAttached(c: Connect, t: Toolkit, req: NextRequest, res: NextResponse)
    requires res.ended.None? && res.patch.None?
    requires NextIsWsOverHttp(req) ==> BuildWsContext(req.headers, req.body, c.prefix, t.decodeEvents).Success?
    ensures var f := CheckGripStatus(c, req, t.validSig);
            var ctx := if NextIsWsOverHttp(req)
                       then Some(BuildWsContext(req.headers, req.body, c.prefix, t.decodeEvents).value) else None;
            var (req', res') := Handle(c, t, req, res);
            && req'.grip == Some(ConnectRequestGrip(f.isProxied, f.isSigned, ctx))
            && (f.isProxied ==> res' == res.(grip := Some(Fresh()), patch := Some(ctx)))
            && (!f.isProxied && c.isGripProxyRequired
                ==> res' == res.(grip := Some(Unavailable()), statusCode := 501, ended := Some(NotImplementedBody)))
            && (!f.isProxied && !c.isGripProxyRequired ==> res' == res.(grip := Some(Unavailable())))
  {
  }

  /**
   * A WebSocket-over-HTTP request without `connection-id` gets 400 even when a proxy is
   * required and the request is not proxied: the 501 check comes later.
   */
  lemma MissingConnectionIdBeforeProxyCheck(c: Connect, t: Toolkit, req: NextRequest, res: NextResponse)
    requires NextIsWsOverHttp(req) && Flatten(Lookup(req.headers, "connection-id")).None?
    ensures var (req', res') := Handle(c, t, req, res);
            && res'.statusCode == 400 && res'.ended == Some(MissingConnectionIdBody)
            && req'.grip.value.wsContext.None? && res'.grip == Some(Unavailable())
  {
  }

  /** Undecodable events get 400 with the decode body, whatever the proxy requirement. */
  lemma DecodeFailureBeforeProxyCheck(c: Connect, t: Toolkit, req: NextRequest, res: NextResponse)
    requires NextIsWsOverHttp(req) && Flatten(Lookup(req.headers, "connection-id")).Some?
    requires t.decodeEvents(req.body).None?
    ensures var (_, res') := Handle(c, t, req, res);
            res'.statusCode == 400 && res'.ended == Some(DecodeErrorBody)
  {
  }

  /**
   * The 501 answer: only for a request that is not proxied, with a proxy required, once any
   * WebSocket context was built; the request keeps its grip and context.
   */
  lemma NextProxyRequired(c: Connect, t: Toolkit, req: NextRequest, res: NextResponse)
    requires res.ended.None?
    ensures var (req', res') := Handle(c, t, req, res);
            res'.ended == Some(NotImplementedBody) <==>
              && !CheckGripStatus(c, req, t.validSig).isProxied && c.isGripProxyRequired
              && (NextIsWsOverHttp(req) ==> BuildWsContext(req.headers, req.body, c.prefix, t.decodeEvents).Success?)
  {
    var w := BuildWsContext(req.headers, req.body, c.prefix, t.decodeEvents);
    if NextIsWsOverHttp(req) && w.Failure? {
      ContextErrorBodiesDistinctFromNotImplemented(w.error);
    }
  }

  /** No context-error body is the 501 body (a helper of `NextProxyRequired`). */
  lemma ContextErrorBodiesDistinctFromNotImplemented(e: WsContextError)
    ensures ContextErrorResponse(e) != NotImplementedBody
  {
    assert |NotImplementedBody| == 17;
    assert |ContextErrorResponse(e)| >= 32 by {
      match e
      case ConnectionIdMissing => assert |MissingConnectionIdBody| == 46;
      case DecodeFailed => assert |DecodeErrorBody| == 32;
      case OtherFailure => assert |ContextErrorBody| == 34;
    }
  }

  /**
   * The patched `writeHead`: on 200 with a context the context's headers are merged, and
   * a started instruct's headers are merged on top, at any status; the status and the
   * instruct are never changed.
   */
  function NextWriteHead(head: Head, ws: Option<WsContext>, gi: Option<GripInstruct>, t: Toolkit): (r: Head)
    ensures r.status == head.status && r.reason == head.reason
    ensures head.status == 200 && ws.Some? && gi.None? ==> r.headers == Some(Assign(head.headers, t.wsHeaders(ws.value)))
    ensures !(head.status == 200 && ws.Some?) && gi.None? ==> r == head
    ensures gi.Some? ==>
              var base := if head.status == 200 && ws.Some? then Some(Assign(head.headers, t.wsHeaders(ws.value))) else head.headers;
              r.headers == Some(Assign(base, t.instructHeaders(gi.value)))
  {
    var withWs := if head.status == 200 && ws.Some? then head.(headers := Some(Assign(head.headers, t.wsHeaders(ws.value)))) else head;
    if gi.Some? then withWs.(headers := Some(Assign(withWs.headers, t.instructHeaders(gi.value)))) else withWs
  }

  /**
   * Both header sets reach the client: on 200 with a context and a started instruct, every
   * instruct header is present as the instruct gives it, and every context header the
   * instruct does not name is present as the context gives it.
   */
  lemma BothHeaderSetsMerged(head: Head, ws: WsContext, g: GripInstruct, t: Toolkit)
    requires head.status == 200
    ensures var r := NextWriteHead(head, Some(ws), Some(g), t);
            && (forall k :: k in t.instructHeaders(g) ==> r.headers.value[k] == t.instructHeaders(g)[k])
            && (forall k :: k in t.wsHeaders(ws) && k !in t.instructHeaders(g) ==> r.headers.value[k] == t.wsHeaders(ws)[k])
  {
  }

  /** A 304 is passed on as 304: this generation has no rewrite for it. */
  lemma NotModifiedPassesThrough(head: Head, ws: Option<WsContext>, g: GripInstruct, t: Toolkit)
    requires head.status == 304
    ensures NextWriteHead(head, ws, Some(g), t).status == 304
  {
  }

  /**
   * The patched `end` is the Connect generation's: events are written only on 200, so a
   * 204 WebSocket-over-HTTP response carries the handler's chunk alone.
   */
  lemma NextEndSkipsNoContent(ws: WsContext, chunk: Option<Bytes>, t: Toolkit)
    ensures ConnectEnd(204, chunk, Some(ws), t.encodeEvents) == (if chunk.Some? then [chunk.value] else [])
  {
  }

  /**
   * `createGripHandler(fn)`: `handle` and then `fn` on what it left, unconditionally, so
   * `fn` also runs after a 400 or 501 answer, and always sees both grips attached.
   */
  function CreateGripHandler(c: Connect, t: Toolkit, fn: (NextRequest, NextResponse) -> NextResponse,
                             req: NextRequest, res: NextResponse): (r: NextResponse)
    ensures var (req', res') := Handle(c, t, req, res);
            && r == fn(req', res')
            && req'.grip.Some? && res'.grip.Some?
  {
    var (req', res') := Handle(c, t, req, res);
    fn(req', res')
  }
}

=== FILE: node_serve_grip.dfy ===
/**
 * The Node binding (`node/ServeGrip.ts`): Node's `IncomingMessage` and `ServerResponse`
 * as request and response state, the platform contract over them, and the response a
 * client finally receives once the patched methods have run.
 */
module NodeServeGrip {
  import opened Wrappers
  import opened Http
  import opened GripToolkit
  import opened WsOverHttp
  import opened ResponseGripState
  import opened ServeGripConfig
  import opened ServeGripBase
  import opened ResponseRewrite

  /** An incoming request: method, header object, the body bytes and the attached grip. */
  datatype IncomingMessage = IncomingMessage(verb: string, headers: IncomingHeaders, body: Bytes, grip: Option<RequestGrip>)

  /**
   * A server response before it is sent: `statusCode`, the attached grip, the chunk
   * `end` was called with, and which patch of `writeHead`/`end` is installed.
   */
  datatype ServerResponse = ServerResponse(statusCode: int, grip: Option<ResponseGrip>, ended: Option<string>, patch: Option<Mode>)

  /** `getRequestHeaderValue`: the first element of a list value, else the value or absence. */
  function GetRequestHeaderValue(req: IncomingMessage, key: string): (r: Option<string>)
    ensures Lookup(req.headers, key).None? ==> r.None?
    ensures forall s :: Lookup(req.headers, key) == Some(Single(s)) ==> r == Some(s)
    ensures forall items :: Lookup(req.headers, key) == Some(Multi(items)) ==>
              r == (if |items| > 0 then Some(items[0]) else None)
  {
    Flatten(Lookup(req.headers, key))
  }

  /**
   * A header set on the request is the one read back for its name, whatever came before
   * it: a single value as it is, a list by its first element.
   */
  lemma HeaderValueReadBack(req: IncomingMessage, key: string, v: HeaderValue)
    ensures var r := GetRequestHeaderValue(req.(headers := req.headers + [(key, v)]), key);
            && (v.Single? ==> r == Some(v.text))
            && (v.Multi? ==> r == (if |v.items| > 0 then Some(v.items[0]) else None))
  {
  }

  /** The toolkit's `isNodeReqWsOverHttp`, following the content-type/accept rule. */
  function IsRequestWsOverHttp(req: IncomingMessage): bool {
    IsWsOverHttp(req.verb, GetRequestHeaderValue(req, "content-type"), GetRequestHeaderValue(req, "accept"))
  }

  /**
   * `getRequestWebSocketContext(req)` as written: the toolkit's context builder called
   * without a prefix, so a context it builds carries the builder's default, the empty one.
   */
  function GetRequestWebSocketContext(t: Toolkit, req: IncomingMessage): (r: Result<WsContext, WsContextError>)
    ensures r.Success? ==> r.value.prefix == ""
    ensures Flatten(Lookup(req.headers, "connection-id")).None? <==> r == Failure(ConnectionIdMissing)
    ensures r != Failure(OtherFailure)
  {
    BuildWsContext(req.headers, req.body, "", t.decodeEvents)
  }

  /**
   * The Node binding as a platform. Its context builder is the toolkit's, which takes the
   * prefix the context is to carry: `ServeGripBase.RunAsWritten` hands it none, which is
   * `getRequestWebSocketContext` as written, and `ServeGripBase.Run` hands it the
   * configured prefix, which is the corrected binding.
   */
  function NodePlatform(t: Toolkit): (p: Platform<IncomingMessage, ServerResponse>)
    ensures RequestGripRoundTrips(p)
    ensures forall res: ServerResponse, code: int, chunk: string ::
              p.endResponse(p.setResponseStatus(res, code), chunk) == ServerResponse(code, res.grip, Some(chunk), res.patch)
    ensures forall req: IncomingMessage :: p.getRequestWebSocketContext(req, "") == GetRequestWebSocketContext(t, req)
  {
    Platform(
      (req: IncomingMessage) => req.grip,
      (req: IncomingMessage, g: RequestGrip) => req.(grip := Some(g)),
      (req: IncomingMessage, key: string) => GetRequestHeaderValue(req, key),
      (req: IncomingMessage) => IsRequestWsOverHttp(req),
      (req: IncomingMessage, prefix: string) => BuildWsContext(req.headers, req.body, prefix, t.decodeEvents),
      (res: ServerResponse, g: ResponseGrip) => res.(grip := Some(g)),
      (res: ServerResponse, code: int) => res.(statusCode := code),
      (res: ServerResponse, chunk: string) => res.(ended := Some(chunk)),
      (res: ServerResponse, m: Mode) => res.(patch := Some(m)))
  }

  /** A fresh response as Node creates it. */
  function NewServerResponse(): ServerResponse {
    ServerResponse(200, None, None, None)
  }

  /**
   * The head and body chunks that reach the client when the handler ends the response with
   * `end(chunk)` after setting `statusCode` and headers (Node writes the head implicitly),
   * having queued `sent` on the WebSocket context, if there is one. The patched methods
   * read the context the handler worked on, so its queued events are the ones written.
   */
  function Finish(res: ServerResponse, headers: Option<Headers>, chunk: Option<Bytes>, sent: seq<WsEvent>,
                  t: Toolkit, prefix: string): (r: (Head, seq<Bytes>))
    ensures var plain := if chunk.Some? then [chunk.value] else [];
            && (res.patch.None? ==> r == (Head(res.statusCode, None, headers), plain))
            && (res.patch.Some? && res.patch.value.WsMode? ==>
                  var ctx := Queue(res.patch.value.ctx, sent);
                  if IsOkOrNoContent(res.statusCode) then
                    r == (Head(200, Some("OK"), Some(Assign(headers, t.wsHeaders(ctx)))), [t.encodeEvents(ctx.outEvents)] + plain)
                  else r == (Head(res.statusCode, None, headers), plain))
            && (res.patch == Some(InstructMode) ==>
                  && r.1 == plain
                  && (res.grip.None? || res.grip.value.instruct.None? ==> r.0 == Head(res.statusCode, None, headers))
                  && (res.grip.Some? && res.grip.value.instruct.Some? ==>
                        var g := res.grip.value.instruct.value;
                        var g' := g.(status := if res.statusCode == 304 then Some(304) else g.status,
                                     channels := PrefixChannels(g.channels, prefix));
                        r.0 == Head(if res.statusCode == 304 then 200 else res.statusCode,
                                    if res.statusCode == 304 then Some("OK") else None,
                                    Some(Assign(headers, t.instructHeaders(g'))))))
  {
    var head := Head(res.statusCode, None, headers);
    var plain := if chunk.Some? then [chunk.value] else [];
    match res.patch
    case None => (head, plain)
    case Some(WsMode(ctx)) =>
      var live := Queue(ctx, sent);
      (WsWriteHead(head, t.wsHeaders(live)), WsEnd(res.statusCode, chunk, live, t.encodeEvents))
    case Some(InstructMode) =>
      var gi := if res.grip.Some? then res.grip.value.instruct else None;
      (InstructWriteHead(head, gi, prefix, t.instructHeaders).0, plain)
  }

  /**
   * The corrected binding: handed the configured prefix, as the Connect generation's
   * context construction is, the Node context builder gives the context that prefix.
   */
  lemma NodeContextCarriesPrefix(t: Toolkit)
    ensures ContextCarriesPrefix(NodePlatform(t))
  {
  }

  /**
   * A response in WebSocket-over-HTTP mode that the handler ends with 200 or 204 and no
   * body reaches the client as 200 "OK" with the context's headers merged over the
   * handler's, and a body that decodes to the events queued before and by the handler.
   */
  lemma WsResponseEndToEnd(t: Toolkit, res: ServerResponse, ctx: WsContext, sent: seq<WsEvent>,
                           headers: Option<Headers>, prefix: string)
    requires CodecRoundTrips(t)
    requires IsOkOrNoContent(res.statusCode) && res.patch == Some(WsMode(ctx))
    ensures var (head, body) := Finish(res, headers, None, sent, t, prefix);
            && head == Head(200, Some("OK"), Some(Assign(headers, t.wsHeaders(Queue(ctx, sent)))))
            && t.decodeEvents(Concat(body)) == Some(ctx.outEvents + sent)
  {
    WsBodyDecodes(res.statusCode, Queue(ctx, sent), t);
  }

  /** In WebSocket-over-HTTP mode any other status reaches the client unchanged, with the handler's body only. */
  lemma WsOtherStatusUntouched(t: Toolkit, res: ServerResponse, ctx: WsContext, sent: seq<WsEvent>,
                               headers: Option<Headers>, chunk: Option<Bytes>, prefix: string)
    requires !IsOkOrNoContent(res.statusCode) && res.patch == Some(WsMode(ctx))
    ensures Finish(res, headers, chunk, sent, t, prefix)
            == (Head(res.statusCode, None, headers), if chunk.Some? then [chunk.value] else [])
  {
  }

  /**
   * A plain request `run` accepted gets instruction mode. If the handler then calls
   * `startInstruct()`, adds channels and answers 304, the call succeeds exactly when the
   * request is proxied; the client then receives 200 "OK" with the headers of an instruct
   * holding status 304 and the prefixed channels, and otherwise the 304 unchanged.
   */
  lemma NotModifiedEndToEnd(t: Toolkit, sg: ServeGrip, req: IncomingMessage, names: seq<string>, headers: Option<Headers>)
    requires Run(NodePlatform(t), t, sg, req, NewServerResponse()).ok && req.grip.None?
    requires !IsRequestWsOverHttp(req)
    ensures var r := Run(NodePlatform(t), t, sg, req, NewServerResponse());
            && r.req.grip.Some? && r.res.grip.Some? && r.res.patch == Some(InstructMode)
            && var (started, rg) := StartWithChannels(r.res.grip.value, names);
               var (head, body) := Finish(r.res.(statusCode := 304, grip := Some(rg)), headers, None, [], t, sg.prefix);
               var g := GripInstruct(PrefixChannels(AddChannels(NewInstruct(), names).channels, sg.prefix), Some(304), None);
               && (started.Success? <==> r.req.grip.value.isProxied)
               && (started.Success? ==> head == Head(200, Some("OK"), Some(Assign(headers, t.instructHeaders(g)))))
               && (started.Failure? ==> head == Head(304, None, headers))
               && body == []
  {
    Attached(NodePlatform(t), t, sg, req, NewServerResponse(), sg.prefix);
  }
}

=== FILE: response_grip.dfy ===
/**
 * The response grip: `startInstruct()` hands out one `GripInstruct` per response, and
 * only where instructions are available; every other call throws.
 */
module ResponseGripState {
  import opened Wrappers
  import opened GripToolkit

  datatype InstructError = NotAvailable | AlreadyStarted

  /** Whether instructions are available, and the instruct started so far (the closure's variable). */
  datatype ResponseGrip = ResponseGrip(available: bool, instruct: Option<GripInstruct>)

  /** A grip on which `startInstruct()` always throws `GripInstructNotAvailableException`. */
  function Unavailable(): ResponseGrip {
    ResponseGrip(false, None)
  }

  /** A grip whose first `startInstruct()` succeeds. */
  function Fresh(): ResponseGrip {
    ResponseGrip(true, None)
  }

  /** A response grip as the adapter builds one: nothing started yet. */
  predicate Initial(g: ResponseGrip) {
    g.instruct.None?
  }

  /** One `startInstruct()` call: its outcome and the grip after it. */
  function StartInstruct(g: ResponseGrip): (r: (Result<GripInstruct, InstructError>, ResponseGrip))
    ensures !g.available ==> r == (Failure(NotAvailable), g)
    ensures g.available && g.instruct.Some? ==> r == (Failure(AlreadyStarted), g)
    ensures r.0.Success? <==> g.available && g.instruct.None?
    ensures r.0.Success? ==> r.0.value == NewInstruct() && r.1 == g.(instruct := Some(NewInstruct()))
  {
    if !g.available then (Failure(NotAvailable), g)
    else if g.instruct.Some? then (Failure(AlreadyStarted), g)
    else (Success(NewInstruct()), g.(instruct := Some(NewInstruct())))
  }

  /** The outcomes of `n` successive `startInstruct()` calls. */
  function StartMany(g: ResponseGrip, n: nat): seq<Result<GripInstruct, InstructError>>
    decreases n
  {
    if n == 0 then []
    else
      var (r, g') := StartInstruct(g);
      [r] + StartMany(g', n - 1)
  }

  /**
   * At-most-once: of any number of calls on a fresh grip, only the first may succeed; on
   * an available grip every later call throws `AlreadyStarted`, on an unavailable one
   * every call throws `NotAvailable`.
   */
  lemma {:induction false} AtMostOnce(g: ResponseGrip, n: nat)
    requires Initial(g)
    ensures |StartMany(g, n)| == n
    ensures n > 0 ==> (StartMany(g, n)[0].Success? <==> g.available)
    ensures g.available ==> forall i :: 1 <= i < n ==> StartMany(g, n)[i] == Failure(AlreadyStarted)
    ensures !g.available ==> forall i :: 0 <= i < n ==> StartMany(g, n)[i] == Failure(NotAvailable)
  {
    if n > 0 {
      var (r, g') := StartInstruct(g);
      if g.available {
        Saturated(g', n - 1);
      } else {
        AtMostOnce(g, n - 1);
        assert StartMany(g, n) == [r] + StartMany(g, n - 1);
      }
    }
  }

  /** Once an instruct is started, every further call throws the same error and changes nothing. */
  lemma {:induction false} Saturated(g: ResponseGrip, n: nat)
    requires g.instruct.Some? || !g.available
    ensures |StartMany(g, n)| == n
    ensures forall i :: 0 <= i < n ==>
              StartMany(g, n)[i] == Failure(if g.available then AlreadyStarted else NotAvailable)
    decreases n
  {
    if n > 0 {
      Saturated(g, n - 1);
      assert StartMany(g, n) == [StartInstruct(g).0] + StartMany(g, n - 1);
    }
  }

  /**
   * What a handler does with instructions: one `startInstruct()` and then `addChannel` on
   * the instruct it got, once per name. The grip's closure variable holds that same
   * object, so the channels reach whatever later reads the grip. When the call throws,
   * the grip is left as it was.
   */
  function StartWithChannels(g: ResponseGrip, names: seq<string>): (r: (Result<GripInstruct, InstructError>, ResponseGrip))
    ensures r.0.Success? <==> g.available && g.instruct.None?
    ensures r.0.Failure? ==> r.0 == StartInstruct(g).0 && r.1 == g
    ensures r.0.Success? ==>
              && r.0.value.status.None? && r.0.value.hold.None?
              && |r.0.value.channels| == |names|
              && (forall i :: 0 <= i < |names| ==> r.0.value.channels[i] == Channel(names[i], None))
              && r.1 == g.(instruct := Some(r.0.value))
  {
    match StartInstruct(g)
    case (Failure(e), g') => (Failure(e), g')
    case (Success(gi), g') =>
      var gi' := AddChannels(gi, names);
      (Success(gi'), g'.(instruct := Some(gi')))
  }

  /**
   * `startInstruct()` hands out the very instruct the grip keeps, so channels added in two
   * steps, before and after other work, end up as one round over the concatenated names.
   */
  lemma ChannelsInSteps(g: ResponseGrip, a: seq<string>, b: seq<string>)
    requires g.available && g.instruct.None?
    ensures StartWithChannels(g, a + b).0 == Success(AddChannels(StartWithChannels(g, a).0.value, b))
  {
    AddChannelsAppend(NewInstruct(), a, b);
  }

  /** A grip as `startInstruct()` can leave it: an instruct is only ever held where one was available. */
  predicate Obtained(g: ResponseGrip) {
    g.instruct.Some? ==> g.available
  }

  /** The grip after a handler's successive `startInstruct()`-then-`addChannel` rounds. */
  function Replay(g: ResponseGrip, calls: seq<seq<string>>): ResponseGrip
    decreases |calls|
  {
    if calls == [] then g else Replay(StartWithChannels(g, calls[0]).1, calls[1..])
  }

  /**
   * A handler's `startInstruct()`-then-`addChannel` rounds keep a grip `Obtained` (as an
   * `Initial` one is) and keep its availability: the grip of an unproxied request, or of
   * one with a WebSocket context, never comes to carry an instruct.
   */
  lemma {:induction false} ObtainedReachable(g: ResponseGrip, calls: seq<seq<string>>)
    requires Obtained(g)
    ensures Obtained(Replay(g, calls))
    ensures !g.available ==> Replay(g, calls) == g
    ensures Replay(g, calls).available == g.available
    decreases |calls|
  {
    if calls != [] {
      ObtainedReachable(StartWithChannels(g, calls[0]).1, calls[1..]);
    }
  }
}

=== FILE: response_rewrite.dfy ===
/**
 * The response transformations the Node-style bindings install by patching
 * `removeHeader`, `writeHead` and `end`: one set for WebSocket-over-HTTP, one for
 * instructions. Each patched method is a function from the arguments the handler passes
 * to the arguments the original method receives.
 */
module ResponseRewrite {
  import opened Wrappers
  import opened Text
  import opened Http
  import opened GripToolkit

  /** Headers WebSocket-over-HTTP needs and that host defaults must not remove (lower case). */
  const ProtectedHeaders: set<string> := {"content-type", "content-length", "transfer-encoding"}

  /** Whether a patched `removeHeader(name)` reaches the original method (a null name always does). */
  function WsRemoveHeaderDelegates(name: Option<string>): (delegates: bool)
    ensures name.Some? && Lower(name.value) in ProtectedHeaders ==> !delegates
    ensures name.None? || Lower(name.value) !in ProtectedHeaders ==> delegates
  {
    name.None? || Lower(name.value) !in ProtectedHeaders
  }

  /** The original `removeHeader` of a response whose header store is keyed by lower-cased name. */
  function RemoveHeader(h: Headers, name: string): Headers {
    h - {Lower(name)}
  }

  /** The header store after a sequence of patched `removeHeader` calls. */
  function WsRemoveHeaders(h: Headers, names: seq<string>): Headers
    decreases |names|
  {
    if |names| == 0 then h
    else
      var h' := if WsRemoveHeaderDelegates(Some(names[0])) then RemoveHeader(h, names[0]) else h;
      WsRemoveHeaders(h', names[1..])
  }

  /**
   * Whatever the host removes, the protected headers survive with their values, and every
   * other header it names is gone.
   */
  lemma {:induction false} ProtectedHeadersSurvive(h: Headers, names: seq<string>)
    ensures forall k :: k in ProtectedHeaders && k in h ==> k in WsRemoveHeaders(h, names) && WsRemoveHeaders(h, names)[k] == h[k]
    ensures forall i :: 0 <= i < |names| && Lower(names[i]) !in ProtectedHeaders ==> Lower(names[i]) !in WsRemoveHeaders(h, names)
    ensures forall k :: k in WsRemoveHeaders(h, names) ==> k in h && WsRemoveHeaders(h, names)[k] == h[k]
    decreases |names|
  {
    if |names| > 0 {
      var h' := if WsRemoveHeaderDelegates(Some(names[0])) then RemoveHeader(h, names[0]) else h;
      ProtectedHeadersSurvive(h', names[1..]);
      forall i | 0 <= i < |names| && Lower(names[i]) !in ProtectedHeaders
        ensures Lower(names[i]) !in WsRemoveHeaders(h, names)
      {
        if i > 0 {
          assert names[1..][i - 1] == names[i];
        }
      }
    }
  }

  predicate IsOkOrNoContent(status: int) {
    status == 200 || status == 204
  }

  /** Patched `writeHead` in WebSocket-over-HTTP mode: 200 and 204 become 200 "OK" with the context's headers merged in. */
  function WsWriteHead(head: Head, wsHeaders: Headers): (r: Head)
    ensures IsOkOrNoContent(head.status) ==>
              r == Head(200, Some("OK"), Some(Assign(head.headers, wsHeaders)))
    ensures !IsOkOrNoContent(head.status) ==> r == head
  {
    if IsOkOrNoContent(head.status) then Head(200, Some("OK"), Some(Assign(head.headers, wsHeaders)))
    else head
  }

  /**
   * Rewriting is stable: a rewritten head is rewritten to itself, and the status the
   * patched `end` tests selects the same responses before and after rewriting.
   */
  lemma WsWriteHeadStable(head: Head, wsHeaders: Headers)
    ensures WsWriteHead(WsWriteHead(head, wsHeaders), wsHeaders) == WsWriteHead(head, wsHeaders)
    ensures IsOkOrNoContent(WsWriteHead(head, wsHeaders).status) <==> IsOkOrNoContent(head.status)
    ensures WsWriteHead(head, wsHeaders).status != 204
  {
    AssignTwice(head.headers, wsHeaders);
  }

  /** Patched `end(chunk)` in WebSocket-over-HTTP mode: the chunks sent, the encoded events first for 200 and 204. */
  function WsEnd(statusCode: int, chunk: Option<Bytes>, ctx: WsContext, encode: seq<WsEvent> -> Bytes): (sent: seq<Bytes>)
    ensures IsOkOrNoContent(statusCode) ==> sent == [encode(ctx.outEvents)] + (if chunk.Some? then [chunk.value] else [])
    ensures !IsOkOrNoContent(statusCode) ==> sent == (if chunk.Some? then [chunk.value] else [])
  {
    (if IsOkOrNoContent(statusCode) then [encode(ctx.outEvents)] else [])
    + (if chunk.Some? then [chunk.value] else [])
  }

  /** With a codec that round-trips, the body of an ended 200/204 response decodes to the outgoing events. */
  lemma WsBodyDecodes(statusCode: int, ctx: WsContext, t: Toolkit)
    requires CodecRoundTrips(t) && IsOkOrNoContent(statusCode)
    ensures t.decodeEvents(Concat(WsEnd(statusCode, None, ctx, t.encodeEvents))) == Some(ctx.outEvents)
  {
    var sent := WsEnd(statusCode, None, ctx, t.encodeEvents);
    assert sent == [t.encodeEvents(ctx.outEvents)];
    assert Concat(sent[1..]) == [];
    assert Concat(sent) == t.encodeEvents(ctx.outEvents);
  }

  /**
   * Patched `writeHead` in instruction mode. Without an instruct nothing changes. With
   * one, 304 becomes 200 "OK" and the instruct carries status 304, every channel gets the
   * prefix, and the instruct's headers are merged over the caller's. The instruct is
   * returned too, because the source rewrites it in place.
   */
  function InstructWriteHead(head: Head, gi: Option<GripInstruct>, prefix: string,
                             instructHeaders: GripInstruct -> Headers): (r: (Head, Option<GripInstruct>))
    ensures gi.None? ==> r == (head, None)
    ensures gi.Some? ==>
              var (h, g2) := r;
              && g2.Some?
              && (head.status == 304 ==> h.status == 200 && h.reason == Some("OK") && g2.value.status == Some(304))
              && (head.status != 304 ==> h.status == head.status && h.reason == head.reason && g2.value.status == gi.value.status)
              && g2.value.hold == gi.value.hold
              && |g2.value.channels| == |gi.value.channels|
              && (forall i :: 0 <= i < |gi.value.channels| ==>
                    g2.value.channels[i] == Channel(prefix + gi.value.channels[i].name, gi.value.channels[i].prevId))
              && h.headers == Some(Assign(head.headers, instructHeaders(g2.value)))
  {
    match gi
    case None => (head, None)
    case Some(g) =>
      var notModified := head.status == 304;
      var g1 := if notModified then g.(status := Some(304)) else g;
      var g2 := g1.(channels := PrefixChannels(g1.channels, prefix));
      var status := if notModified then 200 else head.status;
      var reason := if notModified then Some("OK") else head.reason;
      (Head(status, reason, Some(Assign(head.headers, instructHeaders(g2)))), Some(g2))
  }

  /** The instruct headers win over same-named caller headers; other caller headers stay. */
  lemma InstructHeadersOverride(head: Head, g: GripInstruct, prefix: string, instructHeaders: GripInstruct -> Headers)
    requires head.headers.Some?
    ensures var (h, gi) := InstructWriteHead(head, Some(g), prefix, instructHeaders);
            var ih := instructHeaders(gi.value);
            && (forall k :: k in ih ==> h.headers.value[k] == ih[k])
            && (forall k :: k in head.headers.value && k !in ih ==> h.headers.value[k] == head.headers.value[k])
  {
  }
}

=== FILE: serve_grip_base.dfy ===
/**
 * The adapter core of `ServeGripBase`: `run` classifies a request, attaches the request
 * and response grips through the platform contract, answers the error cases itself and
 * selects the response transformation (WebSocket-over-HTTP or instruction mode).
 */
module ServeGripBase {
  import opened Wrappers
  import opened Http
  import opened GripToolkit
  import opened Classification
  import opened WsOverHttp
  import opened ResponseGripState
  import opened ServeGripConfig

  /** `IRequestGrip`. */
  datatype RequestGrip = RequestGrip(isProxied: bool, isSigned: bool, needsSigned: bool, wsContext: Option<WsContext>)

  /** The response transformation installed for a request, with what it captures. */
  datatype Mode = WsMode(ctx: WsContext) | InstructMode

  /**
   * The platform contract a host binding implements: request-scoped and response-scoped
   * state of types `Req` and `Res`, read and updated only through these operations.
   * `getRequestWebSocketContext` is the toolkit's context builder the binding delegates
   * to, with the builder's optional channel prefix made explicit: the bindings as written
   * leave it out, so the builder's default, the empty prefix, applies.
   */
  datatype Platform<!Req, !Res> = Platform(
    getRequestGrip: Req -> Option<RequestGrip>,
    setRequestGrip: (Req, RequestGrip) -> Req,
    getRequestHeaderValue: (Req, string) -> Option<string>,
    isRequestWsOverHttp: Req -> bool,
    getRequestWebSocketContext: (Req, string) -> Result<WsContext, WsContextError>,
    setResponseGrip: (Res, ResponseGrip) -> Res,
    setResponseStatus: (Res, int) -> Res,
    endResponse: (Res, string) -> Res,
    onAfterSetup: (Res, Mode) -> Res)

  /** A request grip set through the platform is what the platform reads back. */
  ghost predicate RequestGripRoundTrips<Req(!new), Res>(p: Platform<Req, Res>) {
    forall req, g :: p.getRequestGrip(p.setRequestGrip(req, g)) == Some(g)
  }

  /** What `run` resolves to, together with the adapter and platform states it leaves. */
  datatype RunResult<Req, Res> = RunResult(ok: bool, server: ServeGrip, req: Req, res: Res)

  const NoConfigBody := "No Grip configuration provided.\n"
  const NotImplementedBody := "Not Implemented.\n"
  const MissingConnectionIdBody := "WebSocket event missing connection-id header.\n"
  const DecodeErrorBody := "Error parsing WebSocket events.\n"
  const ContextErrorBody := "Error getting web socket Context.\n"

  /** The response after `setResponseStatus(status)` and `endResponse(body)`. */
  function Answer<Req, Res>(p: Platform<Req, Res>, res: Res, status: int, body: string): Res {
    p.endResponse(p.setResponseStatus(res, status), body)
  }

  /** The status-and-body error response `run` sends before returning false. */
  function Reject<Req, Res>(p: Platform<Req, Res>, sg: ServeGrip, req: Req, res: Res, status: int, body: string): RunResult<Req, Res> {
    RunResult(false, sg, req, Answer(p, res, status, body))
  }

  /** The body sent for each way context construction can fail. */
  function ContextErrorResponse(e: WsContextError): string {
    match e
    case ConnectionIdMissing => MissingConnectionIdBody
    case DecodeFailed => DecodeErrorBody
    case OtherFailure => ContextErrorBody
  }

  /**
   * The classification `run` computes, with the adapter state after it: no header gives
   * three false flags and leaves the adapter untouched; a header builds the publisher (or
   * reuses it) and classifies against its clients. The settings are never changed.
   */
  function ClassifyRequest<Req, Res>(p: Platform<Req, Res>, t: Toolkit, sg: ServeGrip, req: Req): (r: (Flags, ServeGrip))
    requires sg.gripProxies.Some?
    ensures var sig := p.getRequestHeaderValue(req, "grip-sig");
            var (f, sg') := r;
            && (sig.None? ==> f == Flags(false, false, false) && sg' == sg)
            && (sig.Some? ==> sg'.publisher.Some? && GetPublisher(sg, t.urlClient) == Success((sg'.publisher.value, sg'))
                              && f == Classify(sig, sg'.publisher.value.clients, t.validSig))
            && sg'.prefix == sg.prefix && sg'.isGripProxyRequired == sg.isGripProxyRequired
            && sg'.gripProxies == sg.gripProxies
  {
    var sig := p.getRequestHeaderValue(req, "grip-sig");
    if sig.None? then (Flags(false, false, false), sg)
    else
      var (pub, sg') := EnsurePublisher(sg, t.urlClient);
      (Classify(sig, pub.clients, t.validSig), sg')
  }

  /**
   * The body of `run`, with the prefix handed to context construction as a parameter:
   * `Run` passes the configured prefix, `RunAsWritten` passes none. A second call is the
   * guard's no-op; a refusal attaches nothing and answers one of the error responses; the
   * settings are never changed; and on success, with a platform that keeps what it is
   * given, the request grip is attached, holds a context exactly for a
   * WebSocket-over-HTTP request, and that context carries the prefix handed over.
   */
  function RunWith<Req(!new), Res>(p: Platform<Req, Res>, t: Toolkit, sg: ServeGrip, req: Req, res: Res, wsPrefix: string)
    : (r: RunResult<Req, Res>)
    ensures p.getRequestGrip(req).Some? ==> r == RunResult(true, sg, req, res)
    ensures !r.ok ==> r.req == req
    ensures !r.ok ==>
              || (sg.gripProxies.None? && r.res == Answer(p, res, 500, NoConfigBody))
              || (sg.gripProxies.Some? && sg.isGripProxyRequired && !ClassifyRequest(p, t, sg, req).0.isProxied
                  && r.res == Answer(p, res, 501, NotImplementedBody))
              || (sg.gripProxies.Some? && p.isRequestWsOverHttp(req) && p.getRequestWebSocketContext(req, wsPrefix).Failure?
                  && r.res == Answer(p, res, 400, ContextErrorResponse(p.getRequestWebSocketContext(req, wsPrefix).error)))
    ensures r.server.gripProxies == sg.gripProxies && r.server.prefix == sg.prefix
    ensures r.server.isGripProxyRequired == sg.isGripProxyRequired
    ensures RequestGripRoundTrips(p) && r.ok ==> p.getRequestGrip(r.req).Some?
    ensures RequestGripRoundTrips(p) && r.ok && p.getRequestGrip(req).None? ==>
              var g := p.getRequestGrip(r.req).value;
              && (g.wsContext.Some? <==> p.isRequestWsOverHttp(req))
              && (g.isProxied || !sg.isGripProxyRequired)
              && (ContextCarriesPrefix(p) && g.wsContext.Some? ==> g.wsContext.value.prefix == wsPrefix)
  {
    if p.getRequestGrip(req).Some? then RunResult(true, sg, req, res)
    else if sg.gripProxies.None? then Reject(p, sg, req, res, 500, NoConfigBody)
    else
      var (flags, sg') := ClassifyRequest(p, t, sg, req);
      if !flags.isProxied && sg'.isGripProxyRequired then Reject(p, sg', req, res, 501, NotImplementedBody)
      else
        var ctxResult: Result<Option<WsContext>, WsContextError> :=
          if !p.isRequestWsOverHttp(req) then Success(None)
          else match p.getRequestWebSocketContext(req, wsPrefix)
            case Success(ctx) => Success(Some(ctx))
            case Failure(e) => Failure(e);
        match ctxResult
        case Failure(e) => Reject(p, sg', req, res, 400, ContextErrorResponse(e))
        case Success(ctx) =>
          var req' := p.setRequestGrip(req, RequestGrip(flags.isProxied, flags.isSigned, flags.needsSigned, ctx));
          var grip := ResponseGrip(ctx.None? && flags.isProxied, None);
          var mode := if ctx.Some? then WsMode(ctx.value) else InstructMode;
          RunResult(true, sg', req', p.onAfterSetup(p.setResponseGrip(res, grip), mode))
  }

  /** The platform's context builder gives the context the prefix it is asked for. */
  ghost predicate ContextCarriesPrefix<Req(!new), Res>(p: Platform<Req, Res>) {
    forall req, prefix :: p.getRequestWebSocketContext(req, prefix).Success? ==>
                            p.getRequestWebSocketContext(req, prefix).value.prefix == prefix
  }

  /**
   * `run`, corrected: the WebSocket context is built with the configured channel prefix,
   * so an attached context carries it.
   */
  function Run<Req(!new), Res>(p: Platform<Req, Res>, t: Toolkit, sg: ServeGrip, req: Req, res: Res): (r: RunResult<Req, Res>)
    ensures RequestGripRoundTrips(p) && ContextCarriesPrefix(p) && r.ok && p.getRequestGrip(req).None?
            && p.isRequestWsOverHttp(req) ==>
              && p.getRequestGrip(r.req).Some? && p.getRequestGrip(r.req).value.wsContext.Some?
              && p.getRequestGrip(r.req).value.wsContext.value.prefix == sg.prefix
  {
    RunWith(p, t, sg, req, res, sg.prefix)
  }

  /**
   * `run` as written: the context is requested without the configured prefix, so an
   * attached context carries the empty prefix whatever the configuration says.
   */
  function RunAsWritten<Req(!new), Res>(p: Platform<Req, Res>, t: Toolkit, sg: ServeGrip, req: Req, res: Res): (r: RunResult<Req, Res>)
    ensures RequestGripRoundTrips(p) && ContextCarriesPrefix(p) && r.ok && p.getRequestGrip(req).None?
            && p.isRequestWsOverHttp(req) ==>
              && p.getRequestGrip(r.req).Some? && p.getRequestGrip(r.req).value.wsContext.Some?
              && p.getRequestGrip(r.req).value.wsContext.value.prefix == ""
  {
    RunWith(p, t, sg, req, res, "")
  }

  /** Idempotency guard: with a request grip already attached, `run` returns true and changes nothing. */
  lemma AlreadyRan<Req(!new), Res>(p: Platform<Req, Res>, t: Toolkit, sg: ServeGrip, req: Req, res: Res)
    requires p.getRequestGrip(req).Some?
    ensures Run(p, t, sg, req, res) == RunResult(true, sg, req, res)
  {
  }

  /** Without a GRIP configuration `run` answers 500 and returns false, attaching nothing. */
  lemma MissingConfiguration<Req(!new), Res>(p: Platform<Req, Res>, t: Toolkit, sg: ServeGrip, req: Req, res: Res)
    requires p.getRequestGrip(req).None? && sg.gripProxies.None?
    ensures Run(p, t, sg, req, res)
            == RunResult(false, sg, req, Answer(p, res, 500, NoConfigBody))
  {
  }

  /** A request that is not proxied while a proxy is required gets 501 and no request grip. */
  lemma ProxyRequired<Req(!new), Res>(p: Platform<Req, Res>, t: Toolkit, sg: ServeGrip, req: Req, res: Res)
    requires p.getRequestGrip(req).None? && sg.gripProxies.Some? && sg.isGripProxyRequired
    requires !ClassifyRequest(p, t, sg, req).0.isProxied
    ensures var r := Run(p, t, sg, req, res);
            && !r.ok && r.req == req
            && r.res == p.endResponse(p.setResponseStatus(res, 501), NotImplementedBody)
  {
  }

  /** Each failure to build the WebSocket context maps to 400 with its own body, and no grip. */
  lemma ContextFailure<Req(!new), Res>(p: Platform<Req, Res>, t: Toolkit, sg: ServeGrip, req: Req, res: Res)
    requires p.getRequestGrip(req).None? && sg.gripProxies.Some?
    requires var f := ClassifyRequest(p, t, sg, req).0; f.isProxied || !sg.isGripProxyRequired
    requires p.isRequestWsOverHttp(req) && p.getRequestWebSocketContext(req, sg.prefix).Failure?
    ensures var r := Run(p, t, sg, req, res);
            var e := p.getRequestWebSocketContext(req, sg.prefix).error;
            && !r.ok && r.req == req
            && r.res == p.endResponse(p.setResponseStatus(res, 400), ContextErrorResponse(e))
  {
  }

  /**
   * On success `run` attaches the request grip (flags from classification, the context
   * when the request is WebSocket-over-HTTP), a response grip on which instructions are
   * available exactly when there is no context and the request is proxied, and installs
   * the transformation for the context if there is one.
   */
  lemma {:induction false} Attached<Req(!new), Res>(p: Platform<Req, Res>, t: Toolkit, sg: ServeGrip, req: Req, res: Res, wsPrefix: string)
    requires p.getRequestGrip(req).None? && sg.gripProxies.Some?
    requires RunWith(p, t, sg, req, res, wsPrefix).ok
    ensures var (f, sg') := ClassifyRequest(p, t, sg, req);
            var ctx := if p.isRequestWsOverHttp(req)
                       then Some(p.getRequestWebSocketContext(req, wsPrefix).value) else None;
            var r := RunWith(p, t, sg, req, res, wsPrefix);
            && (f.isProxied || !sg.isGripProxyRequired)
            && (p.isRequestWsOverHttp(req) ==> p.getRequestWebSocketContext(req, wsPrefix).Success?)
            && r.server == sg'
            && r.req == p.setRequestGrip(req, RequestGrip(f.isProxied, f.isSigned, f.needsSigned, ctx))
            && r.res == p.onAfterSetup(p.setResponseGrip(res, ResponseGrip(ctx.None? && f.isProxied, None)),
                                       if ctx.Some? then WsMode(ctx.value) else InstructMode)
  {
  }

  /** The corrected `run` gives a WebSocket-over-HTTP request a context with the configured prefix. */
  lemma RunKeepsPrefix<Req(!new), Res>(p: Platform<Req, Res>, t: Toolkit, sg: ServeGrip, req: Req, res: Res)
    requires ContextCarriesPrefix(p) && RequestGripRoundTrips(p)
    requires p.getRequestGrip(req).None? && p.isRequestWsOverHttp(req)
    ensures var r := Run(p, t, sg, req, res);
            r.ok ==> p.getRequestGrip(r.req).value.wsContext.value.prefix == sg.prefix
  {
  }

  /**
   * With a prefix configured, `run` as written gives a WebSocket-over-HTTP request a
   * context without it.
   */
  lemma AsWrittenDropsPrefix<Req(!new), Res>(p: Platform<Req, Res>, t: Toolkit, sg: ServeGrip, req: Req, res: Res)
    requires ContextCarriesPrefix(p) && RequestGripRoundTrips(p)
    requires sg.prefix != "" && p.getRequestGrip(req).None? && p.isRequestWsOverHttp(req)
    ensures var r := RunAsWritten(p, t, sg, req, res);
            r.ok ==> p.getRequestGrip(r.req).value.wsContext.value.prefix != sg.prefix
  {
  }

  /** Running twice on the same request is running once: the second run is the guard's no-op. */
  lemma RunTwice<Req(!new), Res>(p: Platform<Req, Res>, t: Toolkit, sg: ServeGrip, req: Req, res: Res)
    requires RequestGripRoundTrips(p)
    requires Run(p, t, sg, req, res).ok
    ensures var r := Run(p, t, sg, req, res);
            Run(p, t, r.server, r.req, r.res) == RunResult(true, r.server, r.req, r.res)
  {
    var r := Run(p, t, sg, req, res);
    if p.getRequestGrip(req).None? {
      Attached(p, t, sg, req, res, sg.prefix);
    }
  }

  /** How `exec` ends: its continuation `fn` is called with the error, plainly, or not at all. */
  datatype RunOutcome = Threw(err: string) | Returned(ok: bool)
  datatype Continuation = NextWithError(err: string) | Next | Stop

  /** `exec` of the Express-style bindings: `fn(err)` on an exception, `fn()` only when `run` returned true. */
  function Exec(o: RunOutcome): (c: Continuation)
    ensures c == Next <==> o == Returned(true)
    ensures c.NextWithError? <==> o.Threw?
    ensures o.Threw? ==> c == NextWithError(o.err)
    ensures c == Stop <==> o == Returned(false)
  {
    match o
    case Threw(e) => NextWithError(e)
    case Returned(ok) => if ok then Next else Stop
  }

  /**
   * `await run(...)` then the continuation, as the Koa binding and the Next.js adapter's
   * `exec` chain it: the continuation follows any returned result and is skipped when the
   * awaited call throws.
   */
  function AwaitThenNext(o: RunOutcome): (c: Continuation)
    ensures c == Next <==> o.Returned?
    ensures o.Threw? ==> c == Stop
  {
    if o.Returned? then Next else Stop
  }
}

=== FILE: serve_grip_binding.dfy ===
/**
 * The Node binding of `ServeGrip.ts`: the `getGrip`/`setGrip` accessors it installs on
 * the toolkit's request and response wrappers, and only where the wrapper has none.
 */
module ServeGripBinding {
  import opened Wrappers
  import opened ResponseGripState
  import opened ServeGripBase
  import opened NodeServeGrip

  /** The grip accessors a wrapper may already carry. */
  datatype Accessors<!R, !G> = Accessors(getGrip: Option<R -> Option<G>>, setGrip: Option<(R, G) -> R>)

  /** Reads `req.grip` off the wrapped Node request. */
  function RequestGripField(req: IncomingMessage): Option<RequestGrip> {
    req.grip
  }

  /** Assigns `req.grip` on the wrapped Node request. */
  function SetRequestGripField(req: IncomingMessage, g: RequestGrip): IncomingMessage {
    req.(grip := Some(g))
  }

  function ResponseGripField(res: ServerResponse): Option<ResponseGrip> {
    res.grip
  }

  function SetResponseGripField(res: ServerResponse, g: ResponseGrip): ServerResponse {
    res.(grip := Some(g))
  }

  /** Fills in each missing accessor with the given default, keeping any the wrapper has. */
  function Install<R, G>(a: Accessors<R, G>, getter: R -> Option<G>, setter: (R, G) -> R): (r: Accessors<R, G>)
    ensures r.getGrip.Some? && r.setGrip.Some?
    ensures a.getGrip.Some? ==> r.getGrip == a.getGrip
    ensures a.setGrip.Some? ==> r.setGrip == a.setGrip
    ensures a.getGrip.None? ==> r.getGrip == Some(getter)
    ensures a.setGrip.None? ==> r.setGrip == Some(setter)
  {
    Accessors(if a.getGrip.Some? then a.getGrip else Some(getter), if a.setGrip.Some? then a.setGrip else Some(setter))
  }

  /** `platformRequestToApiRequest`: the accessors over `req.grip`, where missing. */
  function RequestToApiRequest(a: Accessors<IncomingMessage, RequestGrip>): Accessors<IncomingMessage, RequestGrip> {
    Install(a, RequestGripField, SetRequestGripField)
  }

  /** `platformResponseToApiResponse`: the accessors over `res.grip`, where missing. */
  function ResponseToApiResponse(a: Accessors<ServerResponse, ResponseGrip>): Accessors<ServerResponse, ResponseGrip> {
    Install(a, ResponseGripField, SetResponseGripField)
  }

  /** Wrapping twice installs nothing more. */
  lemma InstallIdempotent<R, G>(a: Accessors<R, G>, getter: R -> Option<G>, setter: (R, G) -> R)
    ensures Install(Install(a, getter, setter), getter, setter) == Install(a, getter, setter)
  {
  }

  /** On a bare wrapper the installed accessors round-trip: what `setGrip` stores, `getGrip` reads. */
  lemma RequestAccessorsRoundTrip(a: Accessors<IncomingMessage, RequestGrip>, req: IncomingMessage, g: RequestGrip)
    requires a.getGrip.None? && a.setGrip.None?
    ensures var r := RequestToApiRequest(a);
            r.getGrip.value(r.setGrip.value(req, g)) == Some(g)
  {
  }

  lemma ResponseAccessorsRoundTrip(a: Accessors<ServerResponse, ResponseGrip>, res: ServerResponse, g: ResponseGrip)
    requires a.getGrip.None? && a.setGrip.None?
    ensures var r := ResponseToApiResponse(a);
            r.getGrip.value(r.setGrip.value(res, g)) == Some(g)
  {
  }
}

=== FILE: text.dfy ===
/**
 * The string operations the adapter relies on: ASCII lower-casing, prefix tests,
 * `indexOf`, `split`, `trim` and joining, with the JavaScript semantics they have in
 * the adapter's source.
 */
module Text {
  import opened Wrappers

  /** JavaScript `toLowerCase`, restricted to the ASCII letters (header names are ASCII). */
  function LowerChar(c: char): (r: char)
    ensures 'A' <= c <= 'Z' ==> 'a' <= r <= 'z' && r as int == c as int + 32
    ensures !('A' <= c <= 'Z') ==> r == c
  {
    if 'A' <= c <= 'Z' then (c as int + 32) as char else c
  }

  function Lower(s: string): (r: string)
    ensures |r| == |s|
    ensures forall i :: 0 <= i < |s| ==> r[i] == LowerChar(s[i])
  {
    seq(|s|, i requires 0 <= i < |s| => LowerChar(s[i]))
  }

  /** Lower-casing twice is lower-casing once. */
  lemma LowerIdempotent(s: string)
    ensures Lower(Lower(s)) == Lower(s)
  {
    assert forall i :: 0 <= i < |s| ==> Lower(Lower(s))[i] == Lower(s)[i];
  }

  predicate StartsWith(s: string, p: string) {
    |p| <= |s| && s[..|p|] == p
  }

  /** The first index of `c` in `s` at or after `from`, as JavaScript `indexOf`. */
  function IndexOfFrom(s: string, c: char, from: nat): (r: Option<nat>)
    requires from <= |s|
    ensures r.Some? ==> from <= r.value < |s| && s[r.value] == c
                        && forall j :: from <= j < r.value ==> s[j] != c
    ensures r.None? ==> forall j :: from <= j < |s| ==> s[j] != c
    decreases |s| - from
  {
    if from == |s| then None
    else if s[from] == c then Some(from)
    else IndexOfFrom(s, c, from + 1)
  }

  function IndexOf(s: string, c: char): (r: Option<nat>)
    ensures r.Some? ==> r.value < |s| && s[r.value] == c && c !in s[..r.value]
    ensures r.None? ==> c !in s
  {
    IndexOfFrom(s, c, 0)
  }

  /** `s.substring(0, s.indexOf(c))` when `c` occurs, else `s` itself. */
  function BeforeFirst(s: string, c: char): (r: string)
    ensures c !in r
    ensures StartsWith(s, r)
    ensures r == s || (|r| < |s| && s[|r|] == c)
  {
    match IndexOf(s, c)
    case Some(i) => s[..i]
    case None => s
  }

  /** JavaScript `parts.join(d)` for a one-character separator. */
  function Join(parts: seq<string>, d: char): string {
    if |parts| == 0 then ""
    else if |parts| == 1 then parts[0]
    else parts[0] + [d] + Join(parts[1..], d)
  }

  /** JavaScript `s.split(d)` for a one-character separator: never empty, pieces free of `d`. */
  function Split(s: string, d: char): (parts: seq<string>)
    ensures |parts| >= 1
    ensures forall i :: 0 <= i < |parts| ==> d !in parts[i]
    ensures Join(parts, d) == s
    decreases |s|
  {
    match IndexOf(s, d)
    case None => [s]
    case Some(i) =>
      var rest := Split(s[i + 1..], d);
      assert s == s[..i] + [d] + s[i + 1..];
      [s[..i]] + rest
  }

  /** Splitting a joined list of separator-free pieces gives the pieces back. */
  lemma {:induction false} SplitJoin(parts: seq<string>, d: char)
    requires |parts| >= 1
    requires forall i :: 0 <= i < |parts| ==> d !in parts[i]
    ensures Split(Join(parts, d), d) == parts
    decreases |parts|
  {
    if |parts| == 1 {
      assert Join(parts, d) == parts[0];
      assert IndexOf(parts[0], d).None?;
    } else {
      var s := Join(parts, d);
      var p := parts[0];
      var tail := Join(parts[1..], d);
      assert s == p + [d] + tail;
      assert s[..|p|] == p;
      assert s[|p|] == d;
      assert forall j :: 0 <= j < |p| ==> s[j] != d;
      IndexOfFirstSeparator(s, d, |p|);
      assert s[|p| + 1..] == tail;
      SplitJoin(parts[1..], d);
      assert parts == [p] + parts[1..];
    }
  }

  lemma IndexOfFirstSeparator(s: string, d: char, k: nat)
    requires k < |s| && s[k] == d
    requires forall j :: 0 <= j < k ==> s[j] != d
    ensures IndexOf(s, d) == Some(k)
  {
  }

  /**
   * The characters ECMAScript's `String.prototype.trim` removes: WhiteSpace (TAB, VT, FF,
   * ZWNBSP and every space separator of category Zs) and LineTerminator (LF, CR, LS, PS).
   */
  predicate IsJsWhitespace(c: char) {
    || c == '\t' || c == '\n' || c == '\U{0B}' || c == '\U{0C}' || c == '\r'
    || c == ' ' || c == '\U{A0}' || c == '\U{1680}'
    || ('\U{2000}' <= c <= '\U{200A}')
    || c == '\U{2028}' || c == '\U{2029}' || c == '\U{202F}' || c == '\U{205F}'
    || c == '\U{3000}' || c == '\U{FEFF}'
  }

  function TrimStart(s: string): (r: string)
    ensures |r| <= |s| && r == s[|s| - |r|..]
    ensures forall j :: 0 <= j < |s| - |r| ==> IsJsWhitespace(s[j])
    ensures |r| > 0 ==> !IsJsWhitespace(r[0])
  {
    if |s| > 0 && IsJsWhitespace(s[0]) then TrimStart(s[1..]) else s
  }

  function TrimEnd(s: string): (r: string)
    ensures |r| <= |s| && r == s[..|r|]
    ensures forall j :: |r| <= j < |s| ==> IsJsWhitespace(s[j])
    ensures |r| > 0 ==> !IsJsWhitespace(r[|r| - 1])
  {
    if |s| > 0 && IsJsWhitespace(s[|s| - 1]) then TrimEnd(s[..|s| - 1]) else s
  }

  /** JavaScript `s.trim()`: the longest slice without leading or trailing whitespace. */
  function Trim(s: string): (r: string)
    ensures exists a, b :: 0 <= a <= b <= |s| && r == s[a..b]
                           && (forall j :: 0 <= j < a ==> IsJsWhitespace(s[j]))
                           && (forall j :: b <= j < |s| ==> IsJsWhitespace(s[j]))
    ensures |r| > 0 ==> !IsJsWhitespace(r[0]) && !IsJsWhitespace(r[|r| - 1])
  {
    var t := TrimStart(s);
    var r := TrimEnd(t);
    var a := |s| - |t|;
    assert r == s[a..a + |r|];
    r
  }

  /** A string with no whitespace at either end is its own trim. */
  lemma TrimOfTrimmed(s: string)
    requires |s| > 0 ==> !IsJsWhitespace(s[0]) && !IsJsWhitespace(s[|s| - 1])
    ensures Trim(s) == s
  {
  }
}

=== FILE: toolkit.dfy ===
/**
 * The GRIP protocol toolkit the adapter consumes but does not implement: signature
 * validation, the WebSocket event codec, header serialisation of instructions and of
 * WebSocket contexts, and the parsing of a GRIP URL into a client. Each is a function
 * value in a `Toolkit` record, so every property proved about the adapter holds for
 * whatever the toolkit does.
 */
module GripToolkit {
  import opened Wrappers
  import opened Http

  /** A verification key: a string, or a binary `Buffer`. */
  datatype Key = TextKey(text: string) | BinaryKey(bytes: Bytes)

  /** One configured proxy endpoint of a publisher, as `getVerifyKey()`/`getVerifyIss()` see it. */
  datatype Client = Client(verifyKey: Option<Key>, verifyIss: Option<string>)

  /** A channel subscription of an instruction: name and optional last event id. */
  datatype Channel = Channel(name: string, prevId: Option<string>)

  datatype HoldMode = HoldStream | HoldResponse

  /** A `GripInstruct`: channels, an optional status override and an optional hold mode. */
  datatype GripInstruct = GripInstruct(channels: seq<Channel>, status: Option<int>, hold: Option<HoldMode>)

  /** One WebSocket-over-HTTP event (TEXT, OPEN, CLOSE, ...) with its optional content. */
  datatype WsEvent = WsEvent(kind: string, content: Option<Bytes>)

  /**
   * A `WebSocketContext`: connection id, metadata from `meta-*` headers, the decoded
   * incoming events, the channel prefix for its subscriptions and the outgoing events
   * accumulated while the handler runs.
   */
  datatype WsContext = WsContext(
    id: string,
    meta: map<string, HeaderValue>,
    inEvents: seq<WsEvent>,
    prefix: string,
    outEvents: seq<WsEvent>)

  /** The context as the handler leaves it after queueing `sent` on it (`send`, `subscribe`, ...). */
  function Queue(ctx: WsContext, sent: seq<WsEvent>): WsContext {
    ctx.(outEvents := ctx.outEvents + sent)
  }

  /** A parsed GRIP URL (`new URL(grip)`): everything but the query, and the query pairs in order. */
  datatype Url = Url(base: string, query: seq<(string, string)>)

  datatype Toolkit = Toolkit(
    validSig: (string, Key, Option<string>) -> bool,
    decodeEvents: Bytes -> Option<seq<WsEvent>>,
    encodeEvents: seq<WsEvent> -> Bytes,
    wsHeaders: WsContext -> Headers,
    instructHeaders: GripInstruct -> Headers,
    base64: Bytes -> string,
    urlClient: Url -> Client)

  /** The codec contract: decoding an encoded event list gives the list back. */
  ghost predicate CodecRoundTrips(t: Toolkit) {
    forall evs :: t.decodeEvents(t.encodeEvents(evs)) == Some(evs)
  }

  /** `new GripInstruct()`. */
  function NewInstruct(): GripInstruct {
    GripInstruct([], None, None)
  }

  /** `gripInstruct.addChannel(name)`. */
  function AddChannel(gi: GripInstruct, name: string): (r: GripInstruct)
    ensures r.channels == gi.channels + [Channel(name, None)]
    ensures r.status == gi.status && r.hold == gi.hold
  {
    gi.(channels := gi.channels + [Channel(name, None)])
  }

  /** `addChannel` for each name in turn, on the same instruct. */
  function AddChannels(gi: GripInstruct, names: seq<string>): (r: GripInstruct)
    ensures |r.channels| == |gi.channels| + |names|
    ensures r.channels[..|gi.channels|] == gi.channels
    ensures forall i :: 0 <= i < |names| ==> r.channels[|gi.channels| + i] == Channel(names[i], None)
    ensures r.status == gi.status && r.hold == gi.hold
    decreases |names|
  {
    if names == [] then gi else AddChannels(AddChannel(gi, names[0]), names[1..])
  }

  /** Adding two lists of channels one after the other is adding their concatenation. */
  lemma {:induction false} AddChannelsAppend(gi: GripInstruct, a: seq<string>, b: seq<string>)
    ensures AddChannels(gi, a + b) == AddChannels(AddChannels(gi, a), b)
    decreases |a|
  {
    if a == [] {
      assert a + b == b;
    } else {
      assert (a + b)[0] == a[0];
      assert (a + b)[1..] == a[1..] + b;
      AddChannelsAppend(AddChannel(gi, a[0]), a[1..], b);
    }
  }

  /** `new Channel(prefix + ch.name, ch.prevId)` for every channel, in order. */
  function PrefixChannels(chs: seq<Channel>, prefix: string): (r: seq<Channel>)
    ensures |r| == |chs|
    ensures forall i :: 0 <= i < |chs| ==> r[i] == Channel(prefix + chs[i].name, chs[i].prevId)
  {
    seq(|chs|, i requires 0 <= i < |chs| => Channel(prefix + chs[i].name, chs[i].prevId))
  }

  /** Prefixing with `p` and then with `q` is prefixing once with `q + p`. */
  lemma PrefixChannelsCompose(chs: seq<Channel>, p: string, q: string)
    ensures PrefixChannels(PrefixChannels(chs, p), q) == PrefixChannels(chs, q + p)
  {
    var l := PrefixChannels(PrefixChannels(chs, p), q);
    var r := PrefixChannels(chs, q + p);
    forall i | 0 <= i < |chs| ensures l[i] == r[i] {
      assert q + (p + chs[i].name) == (q + p) + chs[i].name;
    }
  }

  /** The channels of a prefixed list are recovered by dropping the prefix from every name. */
  lemma PrefixChannelsInvertible(chs: seq<Channel>, prefix: string)
    ensures forall i :: 0 <= i < |chs| ==>
              PrefixChannels(chs, prefix)[i].name[|prefix|..] == chs[i].name
  {
    forall i | 0 <= i < |chs| ensures PrefixChannels(chs, prefix)[i].name[|prefix|..] == chs[i].name {
      assert (prefix + chs[i].name)[|prefix|..] == chs[i].name;
    }
  }
}

=== FILE: wrappers.dfy ===
/** Failure-carrying values shared by every module of the adapter model. */
module Wrappers {

  /** A possibly absent value: JavaScript's `undefined`/`null` versus a present one. */
  datatype Option<+T> = None | Some(value: T) {

    /** The value, or `default` when absent (JavaScript's `??`). */
    function GetOr(default: T): T {
      match this
      case Some(v) => v
      case None => default
    }
  }

  /** The outcome of an operation that may fail with a typed error (a thrown exception). */
  datatype Result<+T, +E> = Success(value: T) | Failure(error: E)
}

=== FILE: ws_over_http.dfy ===
/**
 * WebSocket-over-HTTP: recognising a request that carries WebSocket events, gathering
 * its `meta-*` headers and building the `WebSocketContext` for it.
 */
module WsOverHttp {
  import opened Wrappers
  import opened Text
  import opened Http
  import opened GripToolkit

  const WebSocketEventsType := "application/websocket-events"

  /** The content type with any `;` parameters cut off (no trimming). */
  function ContentTypeBase(ct: Option<string>): (r: Option<string>)
    ensures r.None? <==> ct.None?
    ensures r.Some? ==> ';' !in r.value && StartsWith(ct.value, r.value)
    ensures r.Some? ==> r.value == ct.value || ct.value[|r.value|] == ';'
  {
    match ct
    case None => None
    case Some(s) => Some(BeforeFirst(s, ';'))
  }

  /** `accept?.split(',').map(item => item.trim())`. */
  function AcceptTypes(accept: Option<string>): (r: Option<seq<string>>)
    ensures r.None? <==> accept.None?
    ensures r.Some? ==> |r.value| == |Split(accept.value, ',')|
    ensures r.Some? ==> forall i :: 0 <= i < |r.value| ==> r.value[i] == Trim(Split(accept.value, ',')[i])
  {
    match accept
    case None => None
    case Some(s) =>
      var parts := Split(s, ',');
      Some(seq(|parts|, i requires 0 <= i < |parts| => Trim(parts[i])))
  }

  /**
   * A POST whose content type (before `;`) or one of whose trimmed accept values is
   * exactly `application/websocket-events`.
   */
  predicate IsWsOverHttp(verb: string, ct: Option<string>, accept: Option<string>) {
    && verb == "POST"
    && (|| ContentTypeBase(ct) == Some(WebSocketEventsType)
        || (AcceptTypes(accept).Some? && WebSocketEventsType in AcceptTypes(accept).value))
  }

  /** Only POST requests can be WebSocket-over-HTTP. */
  lemma OnlyPost(verb: string, ct: Option<string>, accept: Option<string>)
    requires verb != "POST"
    ensures !IsWsOverHttp(verb, ct, accept)
  {
  }

  /** Parameters after `;` do not hide the WebSocket events content type. */
  lemma ContentTypeParametersIgnored(params: string, accept: Option<string>)
    ensures IsWsOverHttp("POST", Some(WebSocketEventsType + ";" + params), accept)
  {
    var ct := WebSocketEventsType + ";" + params;
    IndexOfFirstSeparator(ct, ';', |WebSocketEventsType|);
    assert ct[..|WebSocketEventsType|] == WebSocketEventsType;
  }

  /**
   * An accept list (joined with commas) qualifies when one of its entries is the
   * WebSocket events type up to surrounding whitespace.
   */
  lemma AcceptListed(parts: seq<string>, k: nat, ct: Option<string>)
    requires |parts| >= 1 && k < |parts|
    requires forall i :: 0 <= i < |parts| ==> ',' !in parts[i]
    requires Trim(parts[k]) == WebSocketEventsType
    ensures IsWsOverHttp("POST", ct, Some(Join(parts, ',')))
  {
    SplitJoin(parts, ',');
    var r := AcceptTypes(Some(Join(parts, ',')));
    assert r.value[k] == WebSocketEventsType;
  }

  /** The match is case-sensitive: a differently cased type does not qualify. */
  lemma CaseSensitive()
    ensures !IsWsOverHttp("POST", Some("Application/websocket-events"), None)
  {
    var ct := "Application/websocket-events";
    assert ';' !in ct;
    assert BeforeFirst(ct, ';') == ct;
    assert ct[0] != WebSocketEventsType[0];
  }

  /** The metadata key an incoming header name contributes: its lower-cased name after `meta-`. */
  function MetaKey(name: string): (r: Option<string>)
    ensures r.Some? <==> StartsWith(Lower(name), "meta-")
    ensures r.Some? ==> Lower(name) == "meta-" + r.value
  {
    var l := Lower(name);
    if StartsWith(l, "meta-") then
      assert l == l[..5] + l[5..];
      Some(l[5..])
    else None
  }

  /** The metadata map: `meta[lKey.substring(5)] = value` for each header, in entry order. */
  function MetaMap(hs: IncomingHeaders): map<string, HeaderValue> {
    if |hs| == 0 then map[]
    else
      var m0 := MetaMap(hs[..|hs| - 1]);
      match MetaKey(hs[|hs| - 1].0)
      case Some(k) => m0[k := hs[|hs| - 1].1]
      case None => m0
  }

  /** Header `i` is the last one contributing metadata key `k`. */
  ghost predicate LastMetaFor(hs: IncomingHeaders, k: string, i: int) {
    && 0 <= i < |hs| && MetaKey(hs[i].0) == Some(k)
    && forall j :: i < j < |hs| ==> MetaKey(hs[j].0) != Some(k)
  }

  /** The metadata map holds exactly the keys some `meta-*` header contributes. */
  lemma {:induction false} MetaMapDomain(hs: IncomingHeaders, k: string)
    ensures k in MetaMap(hs) <==> exists i :: 0 <= i < |hs| && MetaKey(hs[i].0) == Some(k)
    decreases |hs|
  {
    if |hs| > 0 {
      var n := |hs| - 1;
      var init := hs[..n];
      MetaMapDomain(init, k);
      if exists i :: 0 <= i < |hs| && MetaKey(hs[i].0) == Some(k) {
        var i :| 0 <= i < |hs| && MetaKey(hs[i].0) == Some(k);
        if i < n {
          assert init[i] == hs[i];
        }
      }
      if exists i :: 0 <= i < n && MetaKey(init[i].0) == Some(k) {
        var i :| 0 <= i < n && MetaKey(init[i].0) == Some(k);
        assert hs[i] == init[i];
      }
    }
  }

  /** Each metadata entry carries the value of the last header contributing its key. */
  lemma {:induction false} MetaMapValue(hs: IncomingHeaders, k: string)
    requires k in MetaMap(hs)
    ensures exists i :: LastMetaFor(hs, k, i) && MetaMap(hs)[k] == hs[i].1
    decreases |hs|
  {
    var n := |hs| - 1;
    var init := hs[..n];
    if MetaKey(hs[n].0) == Some(k) {
      assert LastMetaFor(hs, k, n);
    } else {
      MetaMapValue(init, k);
      var i :| LastMetaFor(init, k, i) && MetaMap(init)[k] == init[i].1;
      assert hs[i] == init[i];
      assert LastMetaFor(hs, k, i);
    }
  }

  /** The reasons context construction can fail. */
  datatype WsContextError = ConnectionIdMissing | DecodeFailed | OtherFailure

  /**
   * `new WebSocketContext(cid, meta, events, prefix)`: the connection id is mandatory and
   * is checked before the body is decoded.
   */
  function BuildWsContext(hs: IncomingHeaders, body: Bytes, prefix: string,
                          decode: Bytes -> Option<seq<WsEvent>>): (r: Result<WsContext, WsContextError>)
    ensures Flatten(Lookup(hs, "connection-id")).None? <==> r == Failure(ConnectionIdMissing)
    ensures Flatten(Lookup(hs, "connection-id")).Some? && decode(body).None? <==> r == Failure(DecodeFailed)
    ensures r != Failure(OtherFailure)
    ensures r.Success? ==>
              && Some(r.value.id) == Flatten(Lookup(hs, "connection-id"))
              && Some(r.value.inEvents) == decode(body)
              && r.value.meta == MetaMap(hs)
              && r.value.prefix == prefix
              && r.value.outEvents == []
  {
    match Flatten(Lookup(hs, "connection-id"))
    case None => Failure(ConnectionIdMissing)
    case Some(cid) =>
      match decode(body)
      case None => Failure(DecodeFailed)
      case Some(events) => Success(WsContext(cid, MetaMap(hs), events, prefix, []))
  }
}
